=== FILE: README.md ===
# TikTok Shop image optimizer: the item store and its rules, in Dafny

The application takes product photos and has a remote image model place each one in a
sales setting. Underneath the markup it keeps an ordered list of image items, each
with a status (`idle`, `processing`, `done`, `error`; `compressing` and `uploading` are
declared but never used). It changes that list with functional map, filter and slice
updates:

- upload with a cap of ten;
- delete and clear;
- description edits;
- the processing transitions.

"Generate all" takes the idle and failed items and runs them in batches of three. Before
each remote call the image is prepared: files under 1 MiB go as they are, and wider images
are scaled down by width only. The call itself is made with an instruction text built from
the selected scene and the optional product description. The model's answer is scanned for
its first inline image, which comes back as a base64 data URL (RFC 2397, with a payload in
the alphabet of section 4 of RFC 4648). Completed items can be downloaded one by one or
together as an archive whose entries are numbered.

The model is pure functions over `seq<Item>`:

| file | module | what it holds |
|---|---|---|
| js.dfy | `Js` | the JavaScript built-ins the logic relies on: truthiness, `indexOf`, `lastIndexOf`, `split(',')[1]`, `slice(0, end)`, decimal printing, and the unanchored `match('image.*')` |
| types.dfy | `Types` | the items, statuses, scenes, and thrown values as `Failure` |
| constants.dfy | `Constants` | the scene table, `MAX_FILES`, and the scene lookup with its fallback |
| data_urls.dfy | `DataUrls` | base64 data URLs and the `split(',')[1]` round trip |
| image_utils.dfy | `ImageUtils` | the compression decision, the target size, the output metadata, and the prefix stripping |
| gemini_service.dfy | `GeminiService` | the instruction text and the response scan |
| store.dfy | `Store` | upload, delete, clear, edits and status transitions, plus the store invariant |
| batch.dfy | `Batch` | one run, batch planning, "generate all", retry, and toolbar gating |
| download.dfy | `Download` | the archive entry list and its names |
| image_card.dfy | `ImageCard` | the per-card rules: editability, retry, single download, picture shown, label |

The outside world is passed in as opaque functions:

- `ImageUtils.Browser`: image decoding, the canvas context, JPEG encoding, and the file reader.
- `GeminiService.Sdk`: the remote call.
- `Store.Handle`: the generated id and preview URL of each new item.

A rejected promise is `Err(Failure(message))`. Its message is `None` for the error events
of the image loader and the file reader, which have no `message`.

## Model

| member | source | states |
|---|---|---|
| Js.SplitSecond | utils/imageUtils.ts:8 | `split(',')[1]` is defined exactly when the text has a comma, and what it yields never contains a comma |
| Js.SplitSecondOfJoin | App.tsx:75 | joining two comma-free texts with a comma and splitting gives back the second text |
| Js.LastIndexOf | App.tsx:77 | finds the last occurrence of a character, with none after it; `None` means the character does not occur |
| Js.SliceTo | App.tsx:31 | `slice(0, end)` is a prefix of the input whose length is `end`, clamped to the input's length; a negative `end` counts back from the length |
| Js.DecimalInjective | App.tsx:78 | two different counters never print the same |
| Constants.SceneTableWellFormed | constants.ts:4-41 | the table has six entries with pairwise distinct ids, every scene type appears, and the first entry is the auto scene |
| Constants.SelectScene | App.tsx:23 | the selected scene is always an entry of the table; a known id selects its own entry, and any other string falls back to the auto scene |
| DataUrls.PayloadRecovered | services/geminiService.ts:61 | splitting a base64 data URL at its commas recovers the payload exactly, provided the media type has no comma |
| DataUrls.BuildIsDataUrl | services/geminiService.ts:61 | a built data URL is non-empty and starts with `data:` |
| ImageUtils.TargetDims | utils/imageUtils.ts:28-34 | an image no wider than the bound keeps its size; a wider one gets exactly the bound as width, a strictly smaller height and the same aspect ratio; neither dimension ever grows |
| ImageUtils.HeightIsNotBounded | utils/imageUtils.ts:31 | only the width is tested, so a tall narrow image keeps a height above the bound |
| ImageUtils.CompressImage | utils/imageUtils.ts:18-64 | a file under 1 MiB is returned unchanged; a large file fails without a message when it cannot be decoded, with "Canvas context not available" without a canvas context, with "Canvas to Blob failed" when encoding yields nothing, and otherwise is re-encoded as a JPEG of the blob's size under the original name; every large success is a JPEG |
| ImageUtils.CompressSucceeds | utils/imageUtils.ts:44-53 | when every browser step succeeds on a large file, the result is a JPEG of the blob's size under the original name |
| ImageUtils.FileToBase64 | utils/imageUtils.ts:1-16 | rejects, without a message, exactly when the reader fails |
| ImageUtils.FileToBase64RecoversPayload | utils/imageUtils.ts:8 | stripping the prefix gives back the reader's base64 payload exactly |
| GeminiService.SystemPrompt | services/geminiService.ts:16-36 | the instruction text; `PromptFraming` states that it always opens with the role and context heading and closes with the constraints, and the two lemmas below state where the description and the scene instruction appear |
| GeminiService.PromptFraming | services/geminiService.ts:16-36 | the instruction opens with the role and context heading and ends with the constraints list, whatever the scene and description |
| GeminiService.DescriptionInPromptIffTruthy | services/geminiService.ts:16-36 | a truthy description appears quoted in the instruction; a missing or empty one leaves the instruction exactly as if none were given |
| GeminiService.SceneInstructionIncluded | services/geminiService.ts:24 | a preset scene's instruction appears verbatim; for the auto scene the fixed auto-detect sentence appears, and the auto scene's own text plays no part |
| GeminiService.FirstImagePart | services/geminiService.ts:59-60 | the position found carries an image and no earlier part does; `None` means no part carries one |
| GeminiService.ImageFromParts | services/geminiService.ts:58-66 | succeeds exactly when some part carries an image, with the URL of the first such part; otherwise fails with "No image data found in response" |
| GeminiService.LaterPartsIgnored | services/geminiService.ts:59-62 | parts after the first image-carrying one never change the result |
| GeminiService.ExtractImage | services/geminiService.ts:55-66 | with a first candidate the result is exactly the scan of that candidate's parts, so the URL of its first image-carrying part; it succeeds exactly when such a part exists; a success is a `data:` URL; every failure, including a response without candidates, has the no-image message |
| GeminiService.GenerateOptimizedImage | services/geminiService.ts:9-72 | a failure of the remote call is passed on unchanged; otherwise the response scan decides; any success is a non-empty `data:` URL |
| GeminiService.ReturnedUrlYieldsPayload | services/geminiService.ts:61 | the returned URL gives back the part's base64 payload under `split(',')[1]` |
| Store.Apply | App.tsx:99-138 | no transition changes an item's id, original file or preview URL |
| Store.UpdatesCommute | App.tsx:117-138 | write-backs for two different ids commute, so the order in which concurrent runs settle does not matter |
| Store.ImageFiles | App.tsx:34 | keeps exactly the files whose type contains "image", never adding any |
| Store.ImageFilesConcat | App.tsx:34 | filtering joined file lists filters each part in turn, so accepted files keep file order and repeats |
| Store.NewItemsIds | App.tsx:36-42 | the new items carry exactly the generated ids, and distinct generated ids give distinct item ids |
| Store.Upload | App.tsx:25-45 | existing items are kept as a prefix; at most `MAX_FILES - count` items are added, one per image among the first `MAX_FILES - count` files and in file order; each new item is idle with no result, error, scene or description; the store never grows past ten |
| Store.SkippedFileTakesSlot | App.tsx:31-34 | with one free slot, a leading non-image file uses it up and nothing is added |
| Store.FullStoreRejectsUploads | App.tsx:31 | a full store is left unchanged by any upload |
| Store.UploadKeepsInvariant | App.tsx:25-45 | with fresh, distinct generated ids, upload keeps the cap, id uniqueness and field discipline |
| Store.Delete | App.tsx:53-55 | no item with the id remains, the list never grows, and an absent id leaves the list unchanged |
| Store.DeleteMembers | App.tsx:53-55 | the items kept are exactly those with another id |
| Store.DeleteConcat | App.tsx:53-55 | deleting from two joined lists is deleting from each, so the filter keeps the order of the rest |
| Store.DeleteRemovesExactlyOne | App.tsx:53-55 | with unique ids, deleting an item's id removes exactly its position and keeps the rest in order |
| Store.DeleteKeepsInvariant | App.tsx:53-55 | deleting keeps the store's invariant |
| Store.ClearAll | App.tsx:57-59 | clearing leaves no item |
| Store.DeleteEachCoveringIsEmpty | App.tsx:53-55 | deleting all the ids the items carry, in any order, leaves nothing |
| Store.ClearAllIsDeleteEach | App.tsx:53-59 | clearing equals deleting every item one at a time |
| Store.UpdateDescription | App.tsx:61-63 | only the matching items' descriptions change, to the new text; every other field and every other item is unchanged, whatever the status |
| Store.UpdateDescriptionKeepsInvariant | App.tsx:61-63 | editing a description keeps the store's invariant |
| Store.StartProcessing | App.tsx:99 | the matching item becomes processing with no error, and keeps any earlier result and scene; the other items are unchanged |
| Store.MarkDone | App.tsx:117-126 | the matching item becomes done with the result and the scene id recorded, and every other field of it, the error and description included, is kept; the other items are unchanged |
| Store.MarkFailed | App.tsx:130-138 | the matching item becomes failed with the message, and every other field of it, the earlier result, scene and description included, is kept; the other items are unchanged |
| Batch.ErrorText | App.tsx:135 | the recorded message is never empty: the thrown message when truthy, otherwise "Unknown error occurred" |
| Batch.Pipeline | App.tsx:101-114 | compression starts from the original file and its failure is the run's failure; then the compressed file is encoded and an encoding failure is the run's failure; otherwise the result is exactly the service call on that payload with the compressed file's type, the scene and the snapshot's description; a success is a non-empty `data:` URL |
| Batch.SettledShape | App.tsx:117-138 | entering processing and then settling with a non-empty result or any failure leaves an item well formed, done exactly on success and failed otherwise |
| Batch.SettleRun | App.tsx:99-138 | only the item with the id changes; it keeps its id, file, preview and description; it ends well formed, done exactly when the result is a success, with the result URL and scene id recorded, or failed with the error text and its earlier result and scene kept |
| Batch.ProcessSingle | App.tsx:97-140 | only the item with the run's id changes; it keeps its id, file, preview and description; it ends done exactly when the pipeline on the snapshot succeeds, recording the result URL and the scene id, and otherwise failed with the error text, keeping its earlier result and scene; it stays well formed |
| Batch.FinishWellFormed | App.tsx:117-138 | a settled run leaves its item well formed, and done exactly when the pipeline succeeded, otherwise failed |
| Batch.DecodeFailureShowsUnknownError | App.tsx:128-138 | an undecodable large image ends failed with "Unknown error occurred" |
| Batch.FailureMessageShown | App.tsx:128-138 | a failure with a truthy message marks the item failed with exactly that message |
| Batch.MissingImageShowsServiceMessage | App.tsx:101-138 | when compression and encoding succeed and the service answers with no candidates, or with no image-carrying part in the first candidate, the item ends failed with "No image data found in response" |
| Batch.Replay | App.tsx:117-138 | writing back one change per batch entry keeps the list's length and every item's id and file in place |
| Batch.ReplayEffect | App.tsx:154 | write-backs for a batch with distinct ids change each matching item exactly once, by its own entry, and leave the others alone |
| Batch.RunBatch | App.tsx:153-154 | one batch keeps the list's length and every item's id and file in place; `RunBatchEffect` states what it does to each item |
| Batch.SingleBatchIsProcessSingle | App.tsx:154 | a batch of one is exactly one `processSingleImage` |
| Batch.RunBatchEffect | App.tsx:153-154 | marking a whole batch processing and then settling it settles each batch item from its own snapshot and leaves the rest unchanged |
| Batch.Chunk | App.tsx:151-153 | the batches concatenate back to the pending list, none is empty or longer than three, and only the last may be shorter |
| Batch.FiveMakeThreeThenTwo | App.tsx:151-153 | five pending items are processed as three, then two |
| Batch.Pending | App.tsx:146 | picks exactly the idle and failed items, never a processing or done one |
| Batch.PendingConcat | App.tsx:146 | picking from joined lists picks from each part in turn, so the selection keeps list order, which decides the batches |
| Batch.PendingIds | App.tsx:146 | with unique ids the snapshot has unique ids, and holds an item's id exactly when that item is idle or failed |
| Batch.UniqueConcat | App.tsx:146-153 | two lists with unique and disjoint ids join into one with unique ids |
| Batch.UniqueOfConcat | App.tsx:151-153 | splitting a list with unique ids gives two parts with unique, disjoint ids |
| Batch.IdsOfConcat | App.tsx:151-153 | the ids of a joined list are the ids of its parts |
| Batch.RunBatches | App.tsx:152-155 | the batches one after another keep the list's length and every item's id and file in place; `RunBatchesEffect` states what they do to each item |
| Batch.FirstBatchKeepsSnapshots | App.tsx:152-155 | running the first batch keeps ids unique and leaves the later batches' snapshots current |
| Batch.RunBatchesEffect | App.tsx:152-155 | running batches one after another settles every snapshotted item once, from its own snapshot, and changes nothing else |
| Batch.GenerateAll | App.tsx:142-158 | an empty list returns at once unchanged; otherwise the list keeps its length and every item's id and file in place; `GenerateAllEffect` and `GenerateAllKeepsInvariant` state the effect on each item |
| Batch.GenerateAllEffect | App.tsx:142-158 | after "generate all", every item that was idle or failed has been processed once from its own state, and every other item is as it was |
| Batch.FinishKeepsInvariant | App.tsx:117-138 | finishing the pending items of a list that keeps the invariant, and leaving the others alone, keeps the invariant and leaves every pending item done or failed |
| Batch.GenerateAllKeepsInvariant | App.tsx:142-158 | "generate all" keeps the store's invariant and leaves every previously pending item done or failed |
| Batch.FindById | App.tsx:161 | finds the first item with the id, or reports `None` exactly when no item has it |
| Batch.SingleRunEffect | App.tsx:160-165 | a batch of one current item settles that item alone and leaves every other item unchanged |
| Batch.Retry | App.tsx:160-165 | an unknown id leaves the list unchanged; the list keeps its length and every item's id and file in place; `RetryEffect` states the effect on the item with the id |
| Batch.RetryEffect | App.tsx:160-165 | retry processes exactly the item with the id, from its current state; an unknown id does nothing |
| Batch.StaleRunEffect | App.tsx:99-138 | a batch of one snapshot puts the item with its id back into processing and settles it from the snapshot, whatever state the item has reached |
| Batch.RetryDuringRunRunsTwice | App.tsx:152-165 | an item retried while it waits for its batch is settled by the retry and then run again by its batch from the stale snapshot, although it is already done or failed |
| Batch.GenerateEnabledIffPending | App.tsx:261 | outside a run, with nothing in flight, the generate button is enabled exactly when a run would pick something up, so never on an empty list |
| Batch.RunningDisablesToolbar | App.tsx:244-261 | during a run, neither clear nor generate can be pressed |
| Download.Stem | App.tsx:77 | the stem is a prefix of the name: the text before the last dot when that is non-empty, else the whole name; it is non-empty for a non-empty name |
| Download.StemOfBaseAndExtension | App.tsx:77 | removing the extension from `base.ext` gives back `base` |
| Download.StemWithoutDot | App.tsx:77 | a name without a dot is its own stem |
| Download.CompletedItems | App.tsx:66 | keeps exactly the done items that have a result |
| Download.CompletedItemsConcat | App.tsx:66-78 | collecting from joined lists collects from each part in turn, so entries are numbered in list order |
| Download.DownloadAll | App.tsx:65-82 | nothing is produced exactly when no item is completed; otherwise there is one entry per completed item, in order, numbered from one |
| Download.EntryName | App.tsx:78 | the entry name; `EntryNameShape` states its shape and `EntryNamesDiffer` that different positions give different names |
| Download.EntryNameShape | App.tsx:78 | every entry name opens with `optimized-`, the stem and a dash, and ends in `.png` |
| Download.EntryNamesDiffer | App.tsx:78 | entries at different positions are named differently, whatever the original names |
| Download.EntryNamesDistinct | App.tsx:72-80 | the archive never holds two entries with the same name |
| Download.EntryCarriesPayload | App.tsx:75 | an entry's content is exactly the base64 payload of the item's result URL |
| Download.ShownIffEntries | App.tsx:167 | under the store's invariant, the download-all button is shown exactly when the archive would have entries |
| ImageCard.IsEditable | components/ImageCard.tsx:27 | the description field is never editable while the item is processing or done |
| ImageCard.EditableIffPending | components/ImageCard.tsx:27 | a card is editable exactly when a run would pick up its item, never while processing or done |
| ImageCard.RetryOffered | components/ImageCard.tsx:41-52 | a retry button is never offered on an item that is processing or idle |
| ImageCard.RetryNeverWhileProcessing | components/ImageCard.tsx:41-52 | retry is never offered on an item in flight |
| ImageCard.FinishedRunOffersRetry | components/ImageCard.tsx:133-150 | every settled run leaves its item with a retry offer |
| ImageCard.DownloadFileName | components/ImageCard.tsx:17-21 | there is no download exactly when the result URL is not truthy |
| ImageCard.DownloadFileNameInjective | components/ImageCard.tsx:21 | equal download names mean equal ids, so items with unique ids never share a name |
| ImageCard.DoneItemDownloads | components/ImageCard.tsx:18 | a done item of a well-formed store always has something to download |
| ImageCard.DisplayedImage | components/ImageCard.tsx:56-69 | the picture shown is the original preview or the result, and the result only for a done item whose original is not being held |
| ImageCard.DisplayedImageByStatus | components/ImageCard.tsx:56-69 | in a well-formed store a done item shows its result unless the original is held, and every other item shows its original even if it kept an earlier result |
| ImageCard.EditShows | components/ImageCard.tsx:124-125 | what is typed into a card's field is what that card then shows, and the other cards keep their text |
| ImageCard.SceneLabel | components/ImageCard.tsx:101 | the label is one of "Auto Detected", "Manual Scene" and "Pending", and "Pending" exactly when the item is not done |
| ImageCard.LabelOfOutcome | components/ImageCard.tsx:101 | a settled success is labelled "Auto Detected" exactly for the auto scene id and "Manual Scene" otherwise; a settled failure is labelled "Pending" |
| ImageCard.LabelAfterRun | components/ImageCard.tsx:101 | after a successful run the label reads "Auto Detected" exactly when the auto scene was used, and "Manual Scene" for any preset; after a failed run it reads "Pending" |

## Left out

- Rendering, styling, the header and language toggle, and the `TRANSLATIONS` tables are presentation only and have no behaviour.
- `MAX_SIZE_MB` is declared but never read.
- The remote call is the opaque `Sdk` function. This covers the model name, the API key and the request's part layout (services/geminiService.ts:5-7, 38-53).
- The file reader, image loading, canvas drawing, `toBlob`, object URLs, JSZip, link clicks and console logging are browser services. They are parameters or are omitted.
- Promises that never settle are not modelled. The source sets no timeout: a remote call, image load or file read that never settles leaves its item processing and the run flag set for good. The model's browser and service functions always return, so `Batch.GenerateAllEffect` and `Batch.GenerateAllKeepsInvariant` promise that every pending item ends done or failed only under that assumption.
- ImageUtils.TargetDims: uses real arithmetic. The canvas's truncation of fractional sizes to integers is not modelled.
- ImageUtils.CompressImage: does not model the JPEG quality's effect or the new file's `lastModified` time. The encoded size is whatever `toBlob` reports.
- ImageUtils.FileToBase64: omits the branch for a non-string reader result ("Failed to convert file to base64 string"). `readAsDataURL` always produces a string.
- GeminiService.ExtractImage: does not model the `TypeError` that a first candidate without `content` raises. In the model every candidate has a parts list.
- Store.Upload: the ids from `Math.random` and the preview URLs from `URL.createObjectURL` are a parameter, one handle per file, used in order by the accepted files.
- Store.Upload: uniqueness of the ids is assumed in `UploadKeepsInvariant`, not generated.
- Store.Upload: a missing file list (`if (!files) return`) behaves like an empty one and is not separate.
- Batch.GenerateAll: inside a batch, the outcomes are written back in batch order. `Store.UpdatesCommute` shows the order is irrelevant for distinct ids.
- Batch.GenerateAll: user actions during a run (edits, deletes, uploads, retries) are not interleaved with the batches. Retry is not disabled during a run, so in the program a failed item that is still queued can be retried and then run again by its batch, with two runs in flight for one id. The model runs retry and batches one after the other and does not state a one-run-per-item rule, because the program does not keep it; `Batch.RetryDuringRunRunsTwice` shows the second run. A description edited on a queued item during a run is not used by that run, because the run works from its snapshot.
- Batch.GenerateAll: the `isGlobalProcessing` flag is not state in the model. It is the `running` parameter of the toolbar predicates.
- Download.DownloadAll: the archive's folder name, the archive file name, and the error handling of archive generation are not modelled. Only the entry list is.
- Scene choice: the selector and its labels are not modelled. The selected id is typed as a scene type, so `SelectScene` always finds its own entry.

=== FILE: batch.dfy ===
/**
 Processing runs. One image goes through compress, encode and the remote call, and its
 item is first marked processing and then done or failed. "Generate all" snapshots the
 idle and failed items, cuts them into consecutive batches of three, and runs the
 batches one after another; inside a batch every item is marked processing before any
 of them settles. Retry reruns one item. The browser and the remote service are the
 opaque functions of `Env`.
 */
module Batch {
  import opened Js
  import opened Types
  import Store
  import ImageUtils
  import GeminiService

  /** How many images are processed at once. */
  const BatchSize: nat := 3

  const UnknownErrorMessage := "Unknown error occurred"

  /** The outside world of a run: the browser's image and file services and the remote call. */
  datatype Env = Env(browser: ImageUtils.Browser, sdk: GeminiService.Sdk)

  // ---------------------------------------------------------------- one image

  /** The message recorded for a failed run: the thrown value's message if truthy, else a fixed text. */
  function ErrorText(f: Failure): (r: string)
    ensures |r| > 0
    ensures Truthy(f.message) ==> r == f.message.value
    ensures !Truthy(f.message) ==> r == UnknownErrorMessage
  {
    if Truthy(f.message) then f.message.value else UnknownErrorMessage
  }

  /** The first step of a run: the item's original file compressed with the default width bound and quality. */
  function Compressed(item: Item, env: Env): Result<SourceFile> {
    ImageUtils.CompressImage(item.originalFile, ImageUtils.DefaultMaxWidth, ImageUtils.DefaultQuality, env.browser)
  }

  /**
   The awaited steps of `processSingleImage`: compress the ORIGINAL file with the default
   width and quality, encode the compressed file, and call the service with the compressed
   file's type and the snapshot's description. The first failure ends the run.
   */
  function Pipeline(item: Item, scene: SceneOption, env: Env): (r: Result<string>)
    ensures r.Ok? ==> |r.value| > 0 && StartsWith(r.value, "data:")
    ensures Compressed(item, env).Err? ==> r == Err(Compressed(item, env).failure)
    ensures var c := Compressed(item, env);
            c.Ok? && ImageUtils.FileToBase64(c.value, env.browser).Err? ==> r == Err(ImageUtils.FileToBase64(c.value, env.browser).failure)
    ensures var c := Compressed(item, env);
            c.Ok? && ImageUtils.FileToBase64(c.value, env.browser).Ok? ==>
              r == GeminiService.GenerateOptimizedImage(ImageUtils.FileToBase64(c.value, env.browser).value, c.value.mime,
                                                        scene, item.productDescription, env.sdk)
  {
    match Compressed(item, env)
    case Err(f) => Err(f)
    case Ok(compressed) =>
      match ImageUtils.FileToBase64(compressed, env.browser)
      case Err(f) => Err(f)
      case Ok(base64) => GeminiService.GenerateOptimizedImage(base64, compressed.mime, scene, item.productDescription, env.sdk)
  }

  /** The change a settled run makes: done with the result and the scene id, or failed with a message. */
  function Outcome(result: Result<string>, sceneId: string): Store.Transition {
    match result
    case Ok(url) => Store.Complete(url, sceneId)
    case Err(f) => Store.Fail(ErrorText(f))
  }

  /** The change a run of `item` makes once it settles. */
  function OutcomeOf(item: Item, scene: SceneOption, env: Env): Store.Transition {
    Outcome(Pipeline(item, scene, env), SceneId(scene.id))
  }

  /**
   Entering processing and then settling with a non-empty result or any failure leaves every
   item well formed and either done or failed.
   */
  lemma SettledShape(result: Result<string>, sceneId: string)
    requires result.Ok? ==> |result.value| > 0
    ensures forall x: Item ::
              var y := Store.Apply(Store.Apply(x, Store.EnterProcessing), Outcome(result, sceneId));
              Store.WellFormed(y) && (y.status == Done || y.status == Error) && (y.status == Done <==> result.Ok?)
  {
  }

  /**
   The list side of one run: mark the item processing, then write back the outcome, done with
   the result and the scene id, or failed with the message.
   */
  function SettleRun(images: seq<Item>, id: string, result: Result<string>, sceneId: string): (r: seq<Item>)
    requires result.Ok? ==> |result.value| > 0
    ensures |r| == |images|
    ensures forall i :: 0 <= i < |r| && images[i].id != id ==> r[i] == images[i]
    ensures forall i :: 0 <= i < |r| && images[i].id == id ==>
              (r[i].status == Done || r[i].status == Error) && Store.WellFormed(r[i])
              && r[i].id == images[i].id && r[i].originalFile == images[i].originalFile
              && r[i].previewUrl == images[i].previewUrl && r[i].productDescription == images[i].productDescription
              && (r[i].status == Done <==> result.Ok?)
    ensures forall i :: 0 <= i < |r| && images[i].id == id && result.Ok? ==>
              r[i].processedUrl == Some(result.value) && r[i].sceneUsed == Some(sceneId)
    ensures forall i :: 0 <= i < |r| && images[i].id == id && result.Err? ==>
              r[i].error == Some(ErrorText(result.failure)) && r[i].processedUrl == images[i].processedUrl
              && r[i].sceneUsed == images[i].sceneUsed
  {
    var started := Store.StartProcessing(images, id);
    var r := match result
      case Ok(url) => Store.MarkDone(started, id, url, sceneId)
      case Err(f) => Store.MarkFailed(started, id, ErrorText(f));
    assert r == Store.Update(Store.Update(images, id, Store.EnterProcessing), id, Outcome(result, sceneId));
    SettledShape(result, sceneId);
    r
  }

  /**
   `processSingleImage(image, scene)` on the list: the item is marked processing and then
   settles with the outcome of the run on its snapshot.
   */
  function ProcessSingle(images: seq<Item>, item: Item, scene: SceneOption, env: Env): (r: seq<Item>)
    ensures |r| == |images|
    ensures forall i :: 0 <= i < |r| && images[i].id != item.id ==> r[i] == images[i]
    ensures forall i :: 0 <= i < |r| && images[i].id == item.id ==>
              (r[i].status == Done || r[i].status == Error) && Store.WellFormed(r[i])
              && r[i].id == images[i].id && r[i].originalFile == images[i].originalFile
              && r[i].previewUrl == images[i].previewUrl && r[i].productDescription == images[i].productDescription
    ensures forall i :: 0 <= i < |r| && images[i].id == item.id ==>
              (r[i].status == Done <==> Pipeline(item, scene, env).Ok?)
    ensures forall i :: 0 <= i < |r| && images[i].id == item.id && Pipeline(item, scene, env).Ok? ==>
              r[i].processedUrl == Some(Pipeline(item, scene, env).value) && r[i].sceneUsed == Some(SceneId(scene.id))
    ensures forall i :: 0 <= i < |r| && images[i].id == item.id && Pipeline(item, scene, env).Err? ==>
              r[i].error == Some(ErrorText(Pipeline(item, scene, env).failure)) && r[i].processedUrl == images[i].processedUrl
              && r[i].sceneUsed == images[i].sceneUsed
  {
    SettleRun(images, item.id, Pipeline(item, scene, env), SceneId(scene.id))
  }

  /** What one run does to the item it is about, starting from that item's current state. */
  function Finish(item: Item, scene: SceneOption, env: Env): Item {
    Settled(item, SettleChange(scene, env))
  }

  /**
   A finished run always leaves its item well formed, done or failed: the result URL is never
   empty, the message is never empty, and entering processing cleared any old message.
   */
  lemma FinishWellFormed(item: Item, scene: SceneOption, env: Env)
    ensures Store.WellFormed(Finish(item, scene, env))
    ensures Finish(item, scene, env).status == Done || Finish(item, scene, env).status == Error
    ensures Finish(item, scene, env).status == Done <==> Pipeline(item, scene, env).Ok?
  {
    SettledShape(Pipeline(item, scene, env), SceneId(scene.id));
  }

  /** A decode failure of a large original reaches the item as the fixed unknown-error message. */
  lemma DecodeFailureShowsUnknownError(item: Item, scene: SceneOption, env: Env)
    requires item.originalFile.size >= ImageUtils.CompressThreshold
    requires env.browser.decode(item.originalFile).None?
    ensures Finish(item, scene, env).status == Error
    ensures Finish(item, scene, env).error == Some(UnknownErrorMessage)
  {
  }

  /**
   A failure with a truthy message reaches the item as that very message; the service's
   "No image data found in response" is shown as it is.
   */
  lemma FailureMessageShown(item: Item, f: Failure, sceneId: string)
    requires Truthy(f.message)
    ensures Store.Apply(Store.Apply(item, Store.EnterProcessing), Outcome(Err(f), sceneId)).status == Error
    ensures Store.Apply(Store.Apply(item, Store.EnterProcessing), Outcome(Err(f), sceneId)).error == f.message
  {
  }

  /**
   A run whose service call answers without an image, either with no candidates or with no
   image-carrying part in the first candidate, leaves its item failed with the service's own
   message.
   */
  lemma MissingImageShowsServiceMessage(item: Item, scene: SceneOption, env: Env, c: SourceFile, b: Option<string>,
                                        resp: GeminiService.Response)
    requires Compressed(item, env) == Ok(c)
    requires ImageUtils.FileToBase64(c, env.browser) == Ok(b)
    requires env.sdk(GeminiService.SystemPrompt(scene, item.productDescription), b, c.mime) == Ok(resp)
    requires resp.candidates.None? || |resp.candidates.value| == 0
             || forall j :: 0 <= j < |resp.candidates.value[0].parts| ==> !GeminiService.CarriesImage(resp.candidates.value[0].parts[j])
    ensures Finish(item, scene, env).status == Error
    ensures Finish(item, scene, env).error == Some(GeminiService.NoImageMessage)
  {
    assert Pipeline(item, scene, env) == Err(Failure(Some(GeminiService.NoImageMessage)));
    FailureMessageShown(item, Failure(Some(GeminiService.NoImageMessage)), SceneId(scene.id));
  }

  // ---------------------------------------------------------------- updates in turn

  /** Rewriting the list for each item of a batch in turn, the change for each computed from that item's snapshot. */
  function Replay(images: seq<Item>, batch: seq<Item>, change: Item -> Store.Transition): (r: seq<Item>)
    ensures |r| == |images|
    ensures forall i :: 0 <= i < |r| ==> r[i].id == images[i].id && r[i].originalFile == images[i].originalFile
    decreases |batch|
  {
    if |batch| == 0 then images
    else Replay(Store.Update(images, batch[0].id, change(batch[0])), batch[1..], change)
  }

  /** Every item with an id of the batch is changed exactly once by that batch entry's change; the others are untouched. */
  lemma {:induction false} ReplayEffect(images: seq<Item>, batch: seq<Item>, change: Item -> Store.Transition)
    requires Store.UniqueIds(batch)
    ensures |Replay(images, batch, change)| == |images|
    ensures forall i :: 0 <= i < |images| ==> Replay(images, batch, change)[i].id == images[i].id
    ensures forall i, k :: 0 <= i < |images| && 0 <= k < |batch| && batch[k].id == images[i].id ==>
              Replay(images, batch, change)[i] == Store.Apply(images[i], change(batch[k]))
    ensures forall i :: 0 <= i < |images| && images[i].id !in Store.Ids(batch) ==>
              Replay(images, batch, change)[i] == images[i]
    decreases |batch|
  {
    if |batch| > 0 {
      var x := batch[0];
      var rest := batch[1..];
      var next := Store.Update(images, x.id, change(x));
      Store.UniqueTail(batch);
      ReplayEffect(next, rest, change);
      var r := Replay(images, batch, change);
      assert r == Replay(next, rest, change);
      forall i, k | 0 <= i < |images| && 0 <= k < |batch| && batch[k].id == images[i].id
        ensures r[i] == Store.Apply(images[i], change(batch[k]))
      {
        if k == 0 {
          assert next[i] == Store.Apply(images[i], change(x));
          assert next[i].id !in Store.Ids(rest);
        } else {
          assert batch[k] == rest[k - 1];
          assert next[i] == images[i];
        }
      }
    }
  }

  /** The change every item of a batch gets first. */
  function StartChange(): Item -> Store.Transition {
    _ => Store.EnterProcessing
  }

  /** The change every item of a batch gets when it settles. */
  function SettleChange(scene: SceneOption, env: Env): Item -> Store.Transition {
    x => OutcomeOf(x, scene, env)
  }

  /** An item marked processing and then settled by `settle`, which sees the item's snapshot. */
  function Settled(item: Item, settle: Item -> Store.Transition): Item {
    Store.Apply(Store.Apply(item, Store.EnterProcessing), settle(item))
  }

  /**
   One batch run concurrently, awaited as a whole: each run marks its item processing before
   it first waits, so all of the batch is marked first; the outcomes
   are then written back, here in batch order (updates of distinct ids commute, so any order
   gives the same list). `settle` is the outcome of a run from a snapshot.
   */
  function RunBatch(images: seq<Item>, batch: seq<Item>, settle: Item -> Store.Transition): (r: seq<Item>)
    ensures |r| == |images|
    ensures forall i :: 0 <= i < |r| ==> r[i].id == images[i].id && r[i].originalFile == images[i].originalFile
  {
    Replay(Replay(images, batch, StartChange()), batch, settle)
  }

  /** A batch of one is exactly one `processSingleImage`. */
  lemma SingleBatchIsProcessSingle(images: seq<Item>, item: Item, scene: SceneOption, env: Env)
    ensures RunBatch(images, [item], SettleChange(scene, env)) == ProcessSingle(images, item, scene, env)
  {
    var started := Store.StartProcessing(images, item.id);
    assert Replay(images, [item], StartChange()) == Replay(started, [], StartChange());
    assert Replay(started, [item], SettleChange(scene, env))
        == Replay(Store.Update(started, item.id, OutcomeOf(item, scene, env)), [], SettleChange(scene, env));
  }

  /**
   A batch of snapshots with distinct ids, each still current in a list with unique ids:
   each snapshotted item ends settled from its own state, and nothing else changes.
   */
  lemma RunBatchEffect(images: seq<Item>, batch: seq<Item>, settle: Item -> Store.Transition)
    requires Store.UniqueIds(images) && Store.UniqueIds(batch)
    requires forall k :: 0 <= k < |batch| ==> batch[k] in images
    ensures |RunBatch(images, batch, settle)| == |images|
    ensures forall i :: 0 <= i < |images| ==> RunBatch(images, batch, settle)[i].id == images[i].id
    ensures forall i :: 0 <= i < |images| && images[i].id in Store.Ids(batch) ==>
              RunBatch(images, batch, settle)[i] == Settled(images[i], settle)
    ensures forall i :: 0 <= i < |images| && images[i].id !in Store.Ids(batch) ==>
              RunBatch(images, batch, settle)[i] == images[i]
  {
    var mid := Replay(images, batch, StartChange());
    ReplayEffect(images, batch, StartChange());
    ReplayEffect(mid, batch, settle);
    var r := RunBatch(images, batch, settle);
    forall i | 0 <= i < |images| && images[i].id in Store.Ids(batch)
      ensures r[i] == Settled(images[i], settle)
    {
      var k :| 0 <= k < |batch| && batch[k].id == images[i].id;
      var j :| 0 <= j < |images| && images[j] == batch[k];
      assert j == i;
      assert mid[i] == Store.Apply(images[i], Store.EnterProcessing);
      assert r[i] == Store.Apply(mid[i], settle(batch[k]));
    }
  }

  // ---------------------------------------------------------------- the batch plan

  function Flatten<T>(ss: seq<seq<T>>): seq<T>
    decreases |ss|
  {
    if |ss| == 0 then [] else ss[0] + Flatten(ss[1..])
  }

  /**
   The batch plan, slices of `size` taken from the front: consecutive pieces
   that together are the whole input, none empty, none longer than `size`, and all but the
   last exactly `size` long.
   */
  function Chunk<T>(s: seq<T>, size: nat): (r: seq<seq<T>>)
    requires size > 0
    ensures Flatten(r) == s
    ensures forall k :: 0 <= k < |r| ==> 0 < |r[k]| <= size
    ensures forall k :: 0 <= k < |r| - 1 ==> |r[k]| == size
    decreases |s|
  {
    if |s| == 0 then []
    else if |s| <= size then
      assert Flatten([s]) == s + Flatten([s][1..]);
      [s]
    else
      var rest := Chunk(s[size..], size);
      assert ([s[..size]] + rest)[1..] == rest;
      assert s == s[..size] + s[size..];
      [s[..size]] + rest
  }

  /** Five pending items make a batch of three followed by a batch of two. */
  lemma FiveMakeThreeThenTwo<T>(s: seq<T>)
    requires |s| == 5
    ensures Chunk(s, BatchSize) == [s[..3], s[3..]]
  {
    assert Chunk(s[3..], BatchSize) == [s[3..]];
  }

  /** The items a run picks up: idle or failed. */
  predicate IsPending(item: Item) {
    item.status == Idle || item.status == Error
  }

  /** The idle and failed items, in list order. */
  function Pending(images: seq<Item>): (r: seq<Item>)
    ensures |r| <= |images|
    ensures forall x :: x in r <==> x in images && IsPending(x)
    ensures forall k :: 0 <= k < |r| ==> r[k].status != Processing && r[k].status != Done
    decreases |images|
  {
    if |images| == 0 then []
    else
      var rest := Pending(images[1..]);
      assert images == [images[0]] + images[1..];
      (if IsPending(images[0]) then [images[0]] else []) + rest
  }

  /** Picking from two joined lists picks from each in turn: the selection keeps list order and repeats. */
  lemma {:induction false} PendingConcat(a: seq<Item>, b: seq<Item>)
    ensures Pending(a + b) == Pending(a) + Pending(b)
    decreases |a|
  {
    if |a| == 0 {
      assert a + b == b;
    } else {
      assert (a + b)[1..] == a[1..] + b;
      PendingConcat(a[1..], b);
    }
  }

  /** Two lists with unique ids and no id in common have unique ids together. */
  lemma UniqueConcat(a: seq<Item>, b: seq<Item>)
    requires Store.UniqueIds(a) && Store.UniqueIds(b) && Store.Ids(a) !! Store.Ids(b)
    ensures Store.UniqueIds(a + b)
  {
    var ab := a + b;
    forall i, j | 0 <= i < j < |ab| ensures ab[i].id != ab[j].id {
      if j < |a| {
        assert ab[i] == a[i] && ab[j] == a[j];
      } else if i >= |a| {
        assert ab[i] == b[i - |a|] && ab[j] == b[j - |a|];
      } else {
        assert ab[i] == a[i] && ab[j] == b[j - |a|];
        assert a[i].id in Store.Ids(a) && b[j - |a|].id in Store.Ids(b);
      }
    }
  }

  /** The ids of a list's members are among the list's ids. */
  lemma IdsOfMembers(q: seq<Item>, s: seq<Item>)
    requires forall x :: x in q ==> x in s
    ensures Store.Ids(q) <= Store.Ids(s)
  {
    forall y | y in Store.Ids(q) ensures y in Store.Ids(s) {
      var k :| 0 <= k < |q| && q[k].id == y;
      assert q[k] in q;
      var m :| 0 <= m < |s| && s[m] == q[k];
    }
  }

  /** The snapshot of a list with unique ids has unique ids. */
  lemma {:induction false} PendingUnique(images: seq<Item>)
    requires Store.UniqueIds(images)
    ensures Store.UniqueIds(Pending(images))
    decreases |images|
  {
    if |images| > 0 {
      var rest := images[1..];
      Store.UniqueTail(images);
      PendingUnique(rest);
      var q := Pending(rest);
      if IsPending(images[0]) {
        IdsOfMembers(q, rest);
        assert Store.Ids([images[0]]) == {images[0].id} by {
          assert [images[0]][0].id == images[0].id;
        }
        UniqueConcat([images[0]], q);
        assert Pending(images) == [images[0]] + q;
      } else {
        assert Pending(images) == q;
      }
    }
  }

  /** With unique ids, the snapshot holds an item's id exactly when that item is idle or failed. */
  lemma PendingIds(images: seq<Item>)
    requires Store.UniqueIds(images)
    ensures Store.UniqueIds(Pending(images))
    ensures forall i :: 0 <= i < |images| ==> (images[i].id in Store.Ids(Pending(images)) <==> IsPending(images[i]))
  {
    PendingUnique(images);
    var p := Pending(images);
    forall i | 0 <= i < |images|
      ensures images[i].id in Store.Ids(p) <==> IsPending(images[i])
    {
      if IsPending(images[i]) {
        assert images[i] in p;
        var k :| 0 <= k < |p| && p[k] == images[i];
      }
      if images[i].id in Store.Ids(p) {
        var k :| 0 <= k < |p| && p[k].id == images[i].id;
        assert p[k] in images;
        var j :| 0 <= j < |images| && images[j] == p[k];
        assert j == i;
      }
    }
  }

  /** Running the batches strictly one after another. */
  function RunBatches(images: seq<Item>, batches: seq<seq<Item>>, settle: Item -> Store.Transition): (r: seq<Item>)
    ensures |r| == |images|
    ensures forall i :: 0 <= i < |r| ==> r[i].id == images[i].id && r[i].originalFile == images[i].originalFile
    decreases |batches|
  {
    if |batches| == 0 then images else RunBatches(RunBatch(images, batches[0], settle), batches[1..], settle)
  }

  lemma IdsOfConcat(a: seq<Item>, b: seq<Item>)
    ensures Store.Ids(a + b) == Store.Ids(a) + Store.Ids(b)
  {
    var ab := a + b;
    forall x | x in Store.Ids(ab) ensures x in Store.Ids(a) + Store.Ids(b) {
      var k :| 0 <= k < |ab| && ab[k].id == x;
      if k >= |a| {
        assert b[k - |a|].id == x;
      }
    }
    forall x | x in Store.Ids(a) ensures x in Store.Ids(ab) {
      var k :| 0 <= k < |a| && a[k].id == x;
      assert ab[k].id == x;
    }
    forall x | x in Store.Ids(b) ensures x in Store.Ids(ab) {
      var k :| 0 <= k < |b| && b[k].id == x;
      assert ab[k + |a|].id == x;
    }
  }

  /** Unique ids across a concatenation means unique ids in each part and no id shared between them. */
  lemma UniqueOfConcat(a: seq<Item>, b: seq<Item>)
    requires Store.UniqueIds(a + b)
    ensures Store.UniqueIds(a) && Store.UniqueIds(b) && Store.Ids(a) !! Store.Ids(b)
  {
    var ab := a + b;
    forall i, j | 0 <= i < j < |a| ensures a[i].id != a[j].id {
      assert ab[i] == a[i] && ab[j] == a[j];
    }
    forall i, j | 0 <= i < j < |b| ensures b[i].id != b[j].id {
      assert ab[i + |a|] == b[i] && ab[j + |a|] == b[j];
    }
    forall x | x in Store.Ids(a) ensures x !in Store.Ids(b) {
      var i :| 0 <= i < |a| && a[i].id == x;
      forall j | 0 <= j < |b| ensures b[j].id != x {
        assert ab[i] == a[i] && ab[j + |a|] == b[j];
      }
    }
  }

  /** After the first batch the list still has unique ids, and the later batches' snapshots are still current. */
  lemma FirstBatchKeepsSnapshots(images: seq<Item>, b: seq<Item>, later: seq<Item>, settle: Item -> Store.Transition)
    requires Store.UniqueIds(images) && Store.UniqueIds(b + later)
    requires forall k :: 0 <= k < |b + later| ==> (b + later)[k] in images
    ensures Store.UniqueIds(b) && Store.UniqueIds(later) && Store.Ids(b) !! Store.Ids(later)
    ensures forall k :: 0 <= k < |b| ==> b[k] in images
    ensures Store.UniqueIds(RunBatch(images, b, settle))
    ensures forall k :: 0 <= k < |later| ==> later[k] in RunBatch(images, b, settle)
  {
    UniqueOfConcat(b, later);
    forall k | 0 <= k < |b| ensures b[k] in images {
      assert (b + later)[k] == b[k];
    }
    RunBatchEffect(images, b, settle);
    var next := RunBatch(images, b, settle);
    forall i, j | 0 <= i < j < |next| ensures next[i].id != next[j].id {
      assert next[i].id == images[i].id && next[j].id == images[j].id;
    }
    forall k | 0 <= k < |later| ensures later[k] in next {
      assert (b + later)[k + |b|] == later[k];
      var j :| 0 <= j < |images| && images[j] == later[k];
      assert later[k].id in Store.Ids(later);
      assert next[j] == images[j];
    }
  }

  /**
   Batches of current snapshots with distinct ids across all batches: each snapshotted item
   ends settled from its own state, whichever batch it is in, and nothing else changes.
   */
  lemma {:induction false} RunBatchesEffect(images: seq<Item>, batches: seq<seq<Item>>, settle: Item -> Store.Transition)
    requires Store.UniqueIds(images) && Store.UniqueIds(Flatten(batches))
    requires forall k :: 0 <= k < |Flatten(batches)| ==> Flatten(batches)[k] in images
    ensures |RunBatches(images, batches, settle)| == |images|
    ensures forall i :: 0 <= i < |images| && images[i].id in Store.Ids(Flatten(batches)) ==>
              RunBatches(images, batches, settle)[i] == Settled(images[i], settle)
    ensures forall i :: 0 <= i < |images| && images[i].id !in Store.Ids(Flatten(batches)) ==>
              RunBatches(images, batches, settle)[i] == images[i]
    decreases |batches|
  {
    if |batches| > 0 {
      var b := batches[0];
      var later := Flatten(batches[1..]);
      assert Flatten(batches) == b + later;
      FirstBatchKeepsSnapshots(images, b, later, settle);
      IdsOfConcat(b, later);
      RunBatchEffect(images, b, settle);
      var next := RunBatch(images, b, settle);
      RunBatchesEffect(next, batches[1..], settle);
      var r := RunBatches(images, batches, settle);
      assert r == RunBatches(next, batches[1..], settle);
      forall i | 0 <= i < |images| && images[i].id in Store.Ids(Flatten(batches))
        ensures r[i] == Settled(images[i], settle)
      {
        if images[i].id in Store.Ids(b) {
          assert next[i].id !in Store.Ids(later);
        } else {
          assert next[i] == images[i];
        }
      }
    }
  }

  /**
   `handleGenerateAll`: nothing happens on an empty list; otherwise the pending snapshot is
   cut into batches of three and the batches run in order.
   */
  function GenerateAll(images: seq<Item>, scene: SceneOption, env: Env): (r: seq<Item>)
    ensures |images| == 0 ==> r == images
    ensures |r| == |images|
    ensures forall i :: 0 <= i < |r| ==> r[i].id == images[i].id && r[i].originalFile == images[i].originalFile
  {
    if |images| == 0 then images
    else RunBatches(images, Chunk(Pending(images), BatchSize), SettleChange(scene, env))
  }

  /**
   After a run over a list with unique ids, every item that was idle or failed has been
   processed once from its own state, and every other item is exactly as it was.
   */
  lemma GenerateAllEffect(images: seq<Item>, scene: SceneOption, env: Env)
    requires Store.UniqueIds(images)
    ensures |GenerateAll(images, scene, env)| == |images|
    ensures forall i :: 0 <= i < |images| && IsPending(images[i]) ==>
              GenerateAll(images, scene, env)[i] == Finish(images[i], scene, env)
    ensures forall i :: 0 <= i < |images| && !IsPending(images[i]) ==>
              GenerateAll(images, scene, env)[i] == images[i]
  {
    if |images| > 0 {
      var p := Pending(images);
      PendingIds(images);
      RunBatchesEffect(images, Chunk(p, BatchSize), SettleChange(scene, env));
    }
  }

  /** A run keeps the store's invariant, and afterwards nothing is left idle or processing that was pending. */
  lemma GenerateAllKeepsInvariant(images: seq<Item>, scene: SceneOption, env: Env)
    requires Store.Invariant(images)
    ensures Store.Invariant(GenerateAll(images, scene, env))
    ensures |GenerateAll(images, scene, env)| == |images|
    ensures forall i :: 0 <= i < |images| && IsPending(images[i]) ==>
              GenerateAll(images, scene, env)[i].status.Done? || GenerateAll(images, scene, env)[i].status.Error?
  {
    GenerateAllEffect(images, scene, env);
    var r := GenerateAll(images, scene, env);
    FinishKeepsInvariant(images, r, scene, env);
  }

  /** A list obtained by finishing some items of a list in place, and keeping the rest, keeps the invariant. */
  lemma FinishKeepsInvariant(images: seq<Item>, r: seq<Item>, scene: SceneOption, env: Env)
    requires Store.Invariant(images) && |r| == |images|
    requires forall i :: 0 <= i < |images| && IsPending(images[i]) ==> r[i] == Finish(images[i], scene, env)
    requires forall i :: 0 <= i < |images| && !IsPending(images[i]) ==> r[i] == images[i]
    ensures Store.Invariant(r)
    ensures forall i :: 0 <= i < |images| && IsPending(images[i]) ==> r[i].status.Done? || r[i].status.Error?
  {
    forall i | 0 <= i < |images| ensures r[i].id == images[i].id && Store.WellFormed(r[i]) {
      if IsPending(images[i]) {
        FinishWellFormed(images[i], scene, env);
      }
    }
    forall i | 0 <= i < |images| && IsPending(images[i]) ensures r[i].status.Done? || r[i].status.Error? {
      FinishWellFormed(images[i], scene, env);
    }
    forall i, j | 0 <= i < j < |r| ensures r[i].id != r[j].id {
      assert r[i].id == images[i].id && r[j].id == images[j].id;
    }
  }

  // ---------------------------------------------------------------- retry

  /** The first item carrying the id, if any. */
  function FindById(images: seq<Item>, id: string): (r: Option<Item>)
    ensures r.Some? ==> r.value in images && r.value.id == id
    ensures r.Some? ==> exists k :: 0 <= k < |images| && images[k] == r.value && forall j :: 0 <= j < k ==> images[j].id != id
    ensures r.None? <==> id !in Store.Ids(images)
    decreases |images|
  {
    if |images| == 0 then None
    else if images[0].id == id then Some(images[0])
    else
      var r := FindById(images[1..], id);
      assert id in Store.Ids(images) ==> id in Store.Ids(images[1..]) by {
        if id in Store.Ids(images) {
          var k :| 0 <= k < |images| && images[k].id == id;
          assert images[1..][k - 1].id == id;
        }
      }
      assert r.Some? ==> exists k :: 0 <= k < |images| && images[k] == r.value && forall j :: 0 <= j < k ==> images[j].id != id by {
        if r.Some? {
          var k :| 0 <= k < |images[1..]| && images[1..][k] == r.value && forall j :: 0 <= j < k ==> images[1..][j].id != id;
          assert images[k + 1] == r.value;
          forall j | 0 <= j < k + 1 ensures images[j].id != id {
            if j > 0 { assert images[j] == images[1..][j - 1]; }
          }
        }
      }
      r
  }

  /** `handleRetry`: rerun the item with the id from its current state; an unknown id does nothing. */
  function Retry(images: seq<Item>, id: string, scene: SceneOption, env: Env): (r: seq<Item>)
    ensures id !in Store.Ids(images) ==> r == images
    ensures |r| == |images|
    ensures forall i :: 0 <= i < |r| ==> r[i].id == images[i].id && r[i].originalFile == images[i].originalFile
  {
    match FindById(images, id)
    case None => images
    case Some(item) => ProcessSingle(images, item, scene, env)
  }

  /** A batch of one current item of a list with unique ids settles that item and nothing else. */
  lemma SingleRunEffect(images: seq<Item>, item: Item, settle: Item -> Store.Transition)
    requires Store.UniqueIds(images) && item in images
    ensures |RunBatch(images, [item], settle)| == |images|
    ensures forall i :: 0 <= i < |images| && images[i].id == item.id ==> RunBatch(images, [item], settle)[i] == Settled(images[i], settle)
    ensures forall i :: 0 <= i < |images| && images[i].id != item.id ==> RunBatch(images, [item], settle)[i] == images[i]
  {
    assert Store.UniqueIds([item]);
    RunBatchEffect(images, [item], settle);
    assert Store.Ids([item]) == {item.id};
  }

  /** Retrying with unique ids processes exactly the item with the id, from its own state. */
  lemma RetryEffect(images: seq<Item>, id: string, scene: SceneOption, env: Env)
    requires Store.UniqueIds(images)
    ensures |Retry(images, id, scene, env)| == |images|
    ensures forall i :: 0 <= i < |images| && images[i].id == id ==> Retry(images, id, scene, env)[i] == Finish(images[i], scene, env)
    ensures forall i :: 0 <= i < |images| && images[i].id != id ==> Retry(images, id, scene, env)[i] == images[i]
  {
    match FindById(images, id)
    case None =>
    case Some(item) =>
      SingleBatchIsProcessSingle(images, item, scene, env);
      SingleRunEffect(images, item, SettleChange(scene, env));
  }

  /**
   A batch of one snapshot, current or not, puts the item with its id back into processing
   and settles it from the snapshot, whatever state the item is in by then.
   */
  lemma StaleRunEffect(images: seq<Item>, snapshot: Item, k: nat, settle: Item -> Store.Transition)
    requires k < |images| && images[k].id == snapshot.id
    ensures |RunBatch(images, [snapshot], settle)| == |images|
    ensures RunBatch(images, [snapshot], settle)[k]
            == Store.Apply(Store.Apply(images[k], Store.EnterProcessing), settle(snapshot))
  {
    assert Store.UniqueIds([snapshot]);
    var mid := Replay(images, [snapshot], StartChange());
    ReplayEffect(images, [snapshot], StartChange());
    ReplayEffect(mid, [snapshot], settle);
  }

  /**
   Retry is not gated by a run in progress. An item retried while it waits in a later
   batch is settled by the retry, and its batch then runs it a second time from the stale
   snapshot: the item is put back into processing although it is already done or failed.
   */
  lemma RetryDuringRunRunsTwice(images: seq<Item>, k: nat, scene: SceneOption, env: Env)
    requires Store.UniqueIds(images) && k < |images|
    ensures |Retry(images, images[k].id, scene, env)| == |images|
    ensures Retry(images, images[k].id, scene, env)[k] == Finish(images[k], scene, env)
    ensures Retry(images, images[k].id, scene, env)[k].status == Done || Retry(images, images[k].id, scene, env)[k].status == Error
    ensures |RunBatch(Retry(images, images[k].id, scene, env), [images[k]], SettleChange(scene, env))| == |images|
    ensures RunBatch(Retry(images, images[k].id, scene, env), [images[k]], SettleChange(scene, env))[k]
            == Store.Apply(Store.Apply(Finish(images[k], scene, env), Store.EnterProcessing), OutcomeOf(images[k], scene, env))
  {
    RetryEffect(images, images[k].id, scene, env);
    FinishWellFormed(images[k], scene, env);
    StaleRunEffect(Retry(images, images[k].id, scene, env), images[k], k, SettleChange(scene, env));
  }

  // ---------------------------------------------------------------- toolbar gating

  /** The generate button: enabled when no run is in progress and not every item is done. */
  predicate GenerateEnabled(images: seq<Item>, running: bool) {
    !running && !(forall i :: 0 <= i < |images| ==> images[i].status == Done)
  }

  /**
   Outside a run, and with no item stuck in processing, the button is enabled exactly when a
   run would pick something up; in particular never on an empty list.
   */
  lemma GenerateEnabledIffPending(images: seq<Item>)
    requires Store.Invariant(images)
    requires forall i :: 0 <= i < |images| ==> images[i].status != Processing
    ensures GenerateEnabled(images, false) <==> |Pending(images)| > 0
    ensures GenerateEnabled(images, false) ==> |images| > 0
  {
    if GenerateEnabled(images, false) {
      var i :| 0 <= i < |images| && images[i].status != Done;
      assert Store.WellFormed(images[i]);
      assert images[i] in Pending(images);
    }
    if |Pending(images)| > 0 {
      assert Pending(images)[0] in images;
    }
  }

  /** Clearing is disabled during a run; so is every toolbar button. */
  predicate ClearEnabled(running: bool) {
    !running
  }

  /** A run in progress disables both clearing and generating. */
  lemma RunningDisablesToolbar(images: seq<Item>)
    ensures !ClearEnabled(true) && !GenerateEnabled(images, true)
  {
  }
}

=== FILE: constants.dfy ===
/**
 The scene preset table and the upload limit.
 */
module Constants {
  import opened Types

  /** At most this many images are held at once. */
  const MaxFiles: nat := 10

  const SceneOptions: seq<SceneOption> := [
    SceneOption(
      Auto,
      "✨ Auto Detect",
      "✨ 智能判断",
      "Analyze the product and background, determine the most suitable realistic setting for a Malaysian household or lifestyle context."),
    SceneOption(
      LivingRoom,
      "Modern Condo Living Room",
      "现代公寓客厅",
      "Place the product in a modern, stylish Malaysian condo living room. Good natural lighting, comfortable atmosphere."),
    SceneOption(
      Outdoor,
      "Tropical Garden/Outdoor",
      "热带户外/花园",
      "Place the product in a lush tropical garden or outdoor patio setting suitable for Malaysia. Bright sunlight, greenery."),
    SceneOption(
      Bedroom,
      "Minimalist Bedroom",
      "极简卧室",
      "Place the product in a cozy, minimalist bedroom. Soft lighting, relaxing vibes."),
    SceneOption(
      Kitchen,
      "Kitchen & Dining",
      "厨房与餐厅",
      "Place the product in a clean, modern kitchen or dining area. Domestic setting."),
    SceneOption(
      Office,
      "Office/Study Desk",
      "办公桌",
      "Place the product on a neat office desk or study table. Professional yet accessible look.")
  ]

  /** Some entry of the table has scene type `t`. */
  predicate Listed(t: SceneType) {
    exists i | 0 <= i < |SceneOptions| :: SceneOptions[i].id == t
  }

  /**
   The scene table is well formed: six entries, ids pairwise distinct, every scene type
   present, and the first entry (the lookup's fallback) is the auto scene.
   */
  lemma SceneTableWellFormed()
    ensures |SceneOptions| == 6
    ensures forall i, j :: 0 <= i < j < |SceneOptions| ==> SceneOptions[i].id != SceneOptions[j].id
    ensures forall t: SceneType :: Listed(t)
    ensures SceneOptions[0].id == Auto
  {
    forall t: SceneType
      ensures Listed(t)
    {
      match t
      case Auto => assert SceneOptions[0].id == t;
      case LivingRoom => assert SceneOptions[1].id == t;
      case Outdoor => assert SceneOptions[2].id == t;
      case Bedroom => assert SceneOptions[3].id == t;
      case Kitchen => assert SceneOptions[4].id == t;
      case Office => assert SceneOptions[5].id == t;
    }
  }

  /** The index of the entry whose id is `id`, if any: `Array.prototype.find` over the table. */
  function FindIndex(id: string, from: nat): (r: Js.Option<nat>)
    requires from <= |SceneOptions|
    ensures r.Some? ==> from <= r.value < |SceneOptions| && SceneId(SceneOptions[r.value].id) == id
    ensures r.Some? ==> forall j :: from <= j < r.value ==> SceneId(SceneOptions[j].id) != id
    ensures r.None? ==> forall j :: from <= j < |SceneOptions| ==> SceneId(SceneOptions[j].id) != id
    decreases |SceneOptions| - from
  {
    if from == |SceneOptions| then Js.None
    else if SceneId(SceneOptions[from].id) == id then Js.Some(from)
    else FindIndex(id, from + 1)
  }

  /**
   The selected scene: the table entry whose id matches, or the first entry when none does.
   A known scene id always finds its own entry; any other
   string falls back to the auto scene.
   */
  function SelectScene(id: string): (r: SceneOption)
    ensures r in SceneOptions
    ensures forall t: SceneType :: SceneId(t) == id ==> r.id == t
    ensures (forall t: SceneType :: SceneId(t) != id) ==> r.id == Auto
  {
    SceneTableWellFormed();
    match FindIndex(id, 0)
    case Some(i) => SceneOptions[i]
    case None => SceneOptions[0]
  }
}

=== FILE: data_urls.dfy ===
/**
 Base64 data URLs as used on both sides of the remote call: the browser's
 `readAsDataURL` result and the URL assembled from the model's inline image data.
 The shape is `data:<mediatype>;base64,<payload>` (RFC 2397), and the payload is
 text over the base64 alphabet of section 4 of RFC 4648, which has no comma.
 */
module DataUrls {
  import opened Js

  /** One character of the base64 alphabet, or the `=` pad character. */
  predicate IsBase64Char(c: char) {
    ('A' <= c <= 'Z') || ('a' <= c <= 'z') || ('0' <= c <= '9') || c == '+' || c == '/' || c == '='
  }

  predicate IsBase64Text(s: string) {
    forall i :: 0 <= i < |s| ==> IsBase64Char(s[i])
  }

  /** `data:<mime>;base64,<payload>`. */
  function Build(mime: string, payload: string): string {
    "data:" + mime + ";base64," + payload
  }

  /**
   Taking `split(',')[1]` of a base64 data URL gives back its payload, provided the media
   type has no comma: the payload cannot contain one.
   */
  lemma PayloadRecovered(mime: string, payload: string)
    requires ',' !in mime
    requires IsBase64Text(payload)
    ensures SplitSecond(Build(mime, payload)) == Some(payload)
  {
    var head := "data:" + mime + ";base64";
    assert Build(mime, payload) == head + "," + payload;
    assert ',' !in head by {
      forall i | 0 <= i < |head|
        ensures head[i] != ','
      {
        if 5 <= i < 5 + |mime| {
          assert head[i] == mime[i - 5];
        }
      }
    }
    assert ',' !in payload by {
      forall i | 0 <= i < |payload|
        ensures payload[i] != ','
      {
        assert IsBase64Char(payload[i]);
      }
    }
    SplitSecondOfJoin(head, payload);
  }

  /** A built data URL is never empty (so it is truthy) and always announces itself with the `data:` scheme. */
  lemma BuildIsDataUrl(mime: string, payload: string)
    ensures StartsWith(Build(mime, payload), "data:")
    ensures |Build(mime, payload)| > 0
  {
    assert Build(mime, payload)[..5] == "data:";
  }
}

=== FILE: download.dfy ===
/**
 "Download all": the completed items become archive entries named
 `optimized-<stem>-<n>.png`, numbered from one in list order, whose content is the
 base64 payload of the item's result URL. Building and saving the archive is the
 browser's business and is not modelled; the entry list is.
 */
module Download {
  import opened Js
  import opened Types
  import Store
  import DataUrls

  /**
   The file name without its extension: the text before the last dot, unless that text is
   empty (no dot, or a leading one), in which case the whole name.
   */
  function Stem(name: string): (r: string)
    ensures |r| <= |name| && r == name[..|r|]
    ensures |name| > 0 ==> |r| > 0
    ensures LastIndexOf(name, '.').Some? && LastIndexOf(name, '.').value > 0 ==>
              r == name[..LastIndexOf(name, '.').value]
    ensures LastIndexOf(name, '.').None? || LastIndexOf(name, '.').value == 0 ==> r == name
  {
    match LastIndexOf(name, '.')
    case None => name
    case Some(k) => if k == 0 then name else name[..k]
  }

  /** A name made of a non-empty base and an extension without a dot has that base as its stem. */
  lemma StemOfBaseAndExtension(base: string, ext: string)
    requires |base| > 0 && '.' !in ext
    ensures Stem(base + "." + ext) == base
  {
    var name := base + "." + ext;
    assert name[|base|] == '.';
    assert name[|base| + 1..] == ext;
    var k := LastIndexOf(name, '.').value;
    assert k == |base|;
    assert name[..|base|] == base;
  }

  /** A name without a dot is its own stem. */
  lemma StemWithoutDot(name: string)
    requires '.' !in name
    ensures Stem(name) == name
  {
  }

  /** The archive name of the `n`-th entry: the stem between a fixed prefix and the counter, as a PNG. */
  function EntryName(stem: string, n: nat): string {
    "optimized-" + stem + "-" + Decimal(n) + ".png"
  }

  /** Every entry name opens with the prefix and the stem and ends in `.png`. */
  lemma EntryNameShape(stem: string, n: nat)
    ensures StartsWith(EntryName(stem, n), "optimized-" + stem + "-")
    ensures |EntryName(stem, n)| > 4 && EntryName(stem, n)[|EntryName(stem, n)| - 4..] == ".png"
  {
    var name := EntryName(stem, n);
    assert name == ("optimized-" + stem + "-") + (Decimal(n) + ".png");
    assert name[..|"optimized-" + stem + "-"|] == "optimized-" + stem + "-";
  }

  /** One file of the archive: its name and its base64 content (`None` for the `undefined` a comma-free URL yields). */
  datatype ZipEntry = ZipEntry(name: string, data: Option<string>)

  /** A done item that holds a non-empty result URL. */
  predicate Completed(item: Item) {
    item.status == Done && Truthy(item.processedUrl)
  }

  /** The completed items, in list order. */
  function CompletedItems(images: seq<Item>): (r: seq<Item>)
    ensures |r| <= |images|
    ensures forall x :: x in r <==> x in images && Completed(x)
    ensures forall k :: 0 <= k < |r| ==> Completed(r[k])
    decreases |images|
  {
    if |images| == 0 then []
    else
      var rest := CompletedItems(images[1..]);
      assert images == [images[0]] + images[1..];
      (if Completed(images[0]) then [images[0]] else []) + rest
  }

  /** Collecting from two joined lists collects from each in turn: entries keep list order and repeats. */
  lemma {:induction false} CompletedItemsConcat(a: seq<Item>, b: seq<Item>)
    ensures CompletedItems(a + b) == CompletedItems(a) + CompletedItems(b)
    decreases |a|
  {
    if |a| == 0 {
      assert a + b == b;
    } else {
      assert (a + b)[1..] == a[1..] + b;
      CompletedItemsConcat(a[1..], b);
    }
  }

  /** The archive entry for the completed item at position `k` (counting from zero). */
  function EntryFor(item: Item, k: nat): ZipEntry
    requires Completed(item)
  {
    ZipEntry(EntryName(Stem(item.originalFile.name), k + 1), SplitSecond(item.processedUrl.value))
  }

  /**
   `handleDownloadAll`: nothing when no item is completed; otherwise one entry per completed
   item, in order, numbered from one.
   */
  function DownloadAll(images: seq<Item>): (r: Option<seq<ZipEntry>>)
    ensures r.None? <==> forall i :: 0 <= i < |images| ==> !Completed(images[i])
    ensures r.Some? ==> |r.value| == |CompletedItems(images)| > 0
    ensures r.Some? ==> forall k :: 0 <= k < |r.value| ==> r.value[k] == EntryFor(CompletedItems(images)[k], k)
  {
    var done := CompletedItems(images);
    assert (exists i :: 0 <= i < |images| && Completed(images[i])) ==> |done| > 0 by {
      if exists i :: 0 <= i < |images| && Completed(images[i]) {
        var i :| 0 <= i < |images| && Completed(images[i]);
        assert images[i] in done;
      }
    }
    assert |done| > 0 ==> done[0] in images;
    if |done| == 0 then None
    else Some(seq(|done|, k requires 0 <= k < |done| => EntryFor(done[k], k)))
  }

  /**
   When two texts agree after their last dash and the tails are all digits, the tails are
   equal: a digit can never stand where the other text has its dash.
   */
  lemma DigitTailsAgree(x1: string, d1: string, x2: string, d2: string)
    requires x1 + "-" + d1 == x2 + "-" + d2
    requires forall i :: 0 <= i < |d1| ==> '0' <= d1[i] <= '9'
    requires forall i :: 0 <= i < |d2| ==> '0' <= d2[i] <= '9'
    ensures d1 == d2
  {
    var s := x1 + "-" + d1;
    var t := x2 + "-" + d2;
    assert s[|x1|] == '-' && t[|x2|] == '-';
    assert |d1| == |d2|;
    assert d1 == s[|x1| + 1..] && d2 == t[|x2| + 1..];
  }

  /** Different positions give different entry names, whatever the stems. */
  lemma EntryNamesDiffer(stem1: string, m: nat, stem2: string, n: nat)
    requires m != n
    ensures EntryName(stem1, m) != EntryName(stem2, n)
  {
    if EntryName(stem1, m) == EntryName(stem2, n) {
      var a, b := EntryName(stem1, m), EntryName(stem2, n);
      assert a[..|a| - 4] == "optimized-" + stem1 + "-" + Decimal(m);
      assert b[..|b| - 4] == "optimized-" + stem2 + "-" + Decimal(n);
      DigitTailsAgree("optimized-" + stem1, Decimal(m), "optimized-" + stem2, Decimal(n));
      DecimalInjective(m, n);
      assert false;
    }
  }

  /** The archive never has two entries with the same name, even when original names repeat. */
  lemma EntryNamesDistinct(images: seq<Item>)
    requires DownloadAll(images).Some?
    ensures forall j, k :: 0 <= j < k < |DownloadAll(images).value| ==>
              DownloadAll(images).value[j].name != DownloadAll(images).value[k].name
  {
    var entries := DownloadAll(images).value;
    var done := CompletedItems(images);
    forall j, k | 0 <= j < k < |entries| ensures entries[j].name != entries[k].name {
      EntryNamesDiffer(Stem(done[j].originalFile.name), j + 1, Stem(done[k].originalFile.name), k + 1);
    }
  }

  /**
   An item whose result URL was built from a base64 payload (with a comma-free media type)
   gets exactly that payload as its archive content.
   */
  lemma EntryCarriesPayload(item: Item, k: nat, mime: string, payload: string)
    requires item.status == Done && item.processedUrl == Some(DataUrls.Build(mime, payload))
    requires ',' !in mime && DataUrls.IsBase64Text(payload)
    ensures Completed(item)
    ensures EntryFor(item, k).data == Some(payload)
  {
    DataUrls.BuildIsDataUrl(mime, payload);
    DataUrls.PayloadRecovered(mime, payload);
  }

  /** The toolbar shows the button when some item is done. */
  predicate DownloadAllShown(images: seq<Item>) {
    exists i :: 0 <= i < |images| && images[i].status == Done
  }

  /** Under the store's invariant the button is shown exactly when the archive would have entries. */
  lemma ShownIffEntries(images: seq<Item>)
    requires Store.Invariant(images)
    ensures DownloadAllShown(images) <==> DownloadAll(images).Some?
  {
    if DownloadAllShown(images) {
      var i :| 0 <= i < |images| && images[i].status == Done;
      assert Store.WellFormed(images[i]);
    }
  }
}

=== FILE: gemini_service.dfy ===
/**
 The client side of the image-generation call: the instruction text sent with the
 image, and the scan of the model's response for the first inline image, returned as a
 base64 data URL. The remote call itself is an opaque `Sdk` function.
 */
module GeminiService {
  import opened Js
  import opened Types
  import DataUrls

  /** One part of a response: it may carry inline data (payload and media type, either possibly missing). */
  datatype InlineData = InlineData(data: Option<string>, mimeType: Option<string>)
  datatype Part = Part(inlineData: Option<InlineData>)
  datatype Candidate = Candidate(parts: seq<Part>)
  datatype Response = Response(candidates: Option<seq<Candidate>>)

  /** The remote `generateContent` call: instruction text, image payload and its media type in; a response or a thrown failure out. */
  type Sdk = (string, Option<string>, string) -> Result<Response>

  const NoImageMessage := "No image data found in response"
  const DefaultImageMime := "image/png"

  // ---------------------------------------------------------------- instruction text

  const AutoInstruction :=
    "Deduce the best realistic context based on the product type to maximize appeal for Malaysian buyers."
  const SettingLead := "Place the product strictly in the following setting: "

  const PromptHead :=
    "Role: You are an expert e-commerce image editor for TikTok Shop Malaysia.\n\nContext:\n"
  const PromptTask := "\n\nTask:\n1. Analyze the uploaded product image. "
  const PromptScene := "\n2. Scene Detection/Generation: "
  const PromptTail :=
    "\n3. Visual Enhancement: Ensure the output is photo-realistic. Lighting and color balance must look professional yet authentic (not fake/AI-generated look)."
    + "\n4. Text Overlay: Add a SHORT, high-impact English marketing tagline (e.g., \"Best Seller!\", \"Flash Sale\", \"Premium Quality\", \"Malaysia's No.1\")."
    + "\n   - Font should be modern, bold, and readable."
    + "\n   - Place text in non-obtrusive areas (negative space)."
    + "\n   - STRICTLY ENGLISH ONLY. No Chinese text."
    + "\n\nConstraints:"
    + "\n- OUTPUT MUST BE AN IMAGE."
    + "\n- Do not alter the physical structure or logo of the product itself."
    + "\n- High-resolution, realistic aesthetic."
    + "\n- The output image should be 1:1 aspect ratio if possible, or maintain original aspect ratio."

  /** A text in double quotes. */
  function Quote(s: string): string {
    "\"" + s + "\""
  }

  const ContextLead := "The user has identified this product as: "
  const ContextTrail := ". Use this to guide your scene generation and marketing copy."

  /** The context sentence naming the product, present only for a truthy description. */
  function ContextLine(desc: Option<string>): string {
    if Truthy(desc) then ContextLead + Quote(desc.value) + ContextTrail else ""
  }

  /** The focus hint of the first task step, present only for a truthy description. */
  function FocusLine(desc: Option<string>): string {
    if Truthy(desc) then "(Focus on identifying the " + Quote(desc.value) + ")" else ""
  }

  /** The scene step: a fixed auto-detect sentence for the auto scene, else the scene's own instruction. */
  function SceneLine(scene: SceneOption): string {
    if SceneId(scene.id) == "auto" then AutoInstruction else SettingLead + scene.prompt
  }

  /**
   The instruction text sent with the image. The template's leading newline and trailing
   indentation are what `trim()` removes; the interpolations sit strictly inside it, so
   trimming never touches them.
   */
  function SystemPrompt(scene: SceneOption, desc: Option<string>): string {
    PromptHead + ContextLine(desc) + PromptTask + FocusLine(desc) + PromptScene + SceneLine(scene) + PromptTail
  }

  /** Appending keeps a prefix. */
  lemma StartsWithExtended(s: string, p: string, t: string)
    requires StartsWith(s, p)
    ensures StartsWith(s + t, p)
  {
    assert (s + t)[..|p|] == s[..|p|];
  }

  /** A text ending in `tail` has `tail` as its last characters. */
  lemma EndsWithLast(x: string, tail: string)
    ensures |x + tail| >= |tail| && (x + tail)[|x + tail| - |tail|..] == tail
  {
  }

  /** The instruction always opens with the role and context heading and closes with the constraints. */
  lemma PromptFraming(scene: SceneOption, desc: Option<string>)
    ensures StartsWith(SystemPrompt(scene, desc), PromptHead)
    ensures |SystemPrompt(scene, desc)| >= |PromptTail|
    ensures SystemPrompt(scene, desc)[|SystemPrompt(scene, desc)| - |PromptTail|..] == PromptTail
  {
    var s1 := PromptHead + ContextLine(desc);
    var s2 := s1 + PromptTask;
    var s3 := s2 + FocusLine(desc);
    var s4 := s3 + PromptScene;
    var s5 := s4 + SceneLine(scene);
    assert s1[..|PromptHead|] == PromptHead;
    StartsWithExtended(s1, PromptHead, PromptTask);
    StartsWithExtended(s2, PromptHead, FocusLine(desc));
    StartsWithExtended(s3, PromptHead, PromptScene);
    StartsWithExtended(s4, PromptHead, SceneLine(scene));
    StartsWithExtended(s5, PromptHead, PromptTail);
    EndsWithLast(s5, PromptTail);
  }

  /** The shape of the instruction text with its pieces left abstract: a piece inside the context sentence occurs in the whole. */
  lemma ContainsInContext(head: string, lead: string, x: string, trail: string, task: string, focus: string,
                          sceneHead: string, sceneLine: string, tail: string)
    ensures Contains(head + (lead + x + trail) + task + focus + sceneHead + sceneLine + tail, x)
  {
    var after := trail + task + focus + sceneHead + sceneLine + tail;
    assert head + (lead + x + trail) + task + focus + sceneHead + sceneLine + tail == (head + lead) + x + after;
    ContainsMiddle(head + lead, x, after);
  }

  /** The shape of the instruction text with its pieces left abstract: the end of the scene line occurs in the whole. */
  lemma ContainsInSceneLine(before: string, lead: string, x: string, tail: string)
    ensures Contains(before + (lead + x) + tail, x)
  {
    assert before + (lead + x) + tail == (before + lead) + x + tail;
    ContainsMiddle(before + lead, x, tail);
  }

  /** A truthy description is quoted in the instruction; a missing or empty one leaves no trace. */
  lemma DescriptionInPromptIffTruthy(scene: SceneOption, desc: Option<string>)
    ensures Truthy(desc) ==> Contains(SystemPrompt(scene, desc), Quote(desc.value))
    ensures !Truthy(desc) ==> SystemPrompt(scene, desc) == SystemPrompt(scene, None)
  {
    if Truthy(desc) {
      ContainsInContext(PromptHead, ContextLead, Quote(desc.value), ContextTrail, PromptTask, FocusLine(desc),
                        PromptScene, SceneLine(scene), PromptTail);
    }
  }

  /**
   A chosen scene's instruction is included verbatim; for the auto scene the fixed
   auto-detect sentence is used instead, and the scene record's own text plays no part.
   */
  lemma SceneInstructionIncluded(scene: SceneOption, desc: Option<string>)
    ensures scene.id != Auto ==> Contains(SystemPrompt(scene, desc), scene.prompt)
    ensures scene.id == Auto ==> Contains(SystemPrompt(scene, desc), AutoInstruction)
    ensures scene.id == Auto ==> forall other: SceneOption :: other.id == Auto ==>
              SystemPrompt(other, desc) == SystemPrompt(scene, desc)
  {
    var before := PromptHead + ContextLine(desc) + PromptTask + FocusLine(desc) + PromptScene;
    if scene.id != Auto {
      assert SceneLine(scene) == SettingLead + scene.prompt;
      ContainsInSceneLine(before, SettingLead, scene.prompt, PromptTail);
    } else {
      ContainsMiddle(before, AutoInstruction, PromptTail);
    }
  }

  // ---------------------------------------------------------------- response scan

  /** A part whose inline payload is truthy. */
  predicate CarriesImage(p: Part) {
    p.inlineData.Some? && Truthy(p.inlineData.value.data)
  }

  /** The position of the first part carrying an image, if any. */
  function FirstImagePart(parts: seq<Part>): (r: Option<nat>)
    ensures r.Some? ==> r.value < |parts| && CarriesImage(parts[r.value])
    ensures r.Some? ==> forall j :: 0 <= j < r.value ==> !CarriesImage(parts[j])
    ensures r.None? ==> forall j :: 0 <= j < |parts| ==> !CarriesImage(parts[j])
  {
    if |parts| == 0 then None
    else if CarriesImage(parts[0]) then Some(0)
    else
      match FirstImagePart(parts[1..])
      case None => None
      case Some(i) => Some(i + 1)
  }

  /** The data URL built from an image-carrying part; the media type defaults to PNG when missing or empty. */
  function PartUrl(p: Part): string
    requires CarriesImage(p)
  {
    var d := p.inlineData.value;
    DataUrls.Build(if Truthy(d.mimeType) then d.mimeType.value else DefaultImageMime, d.data.value)
  }

  /** The loop over one candidate's parts: the first image-carrying part wins; none is a failure. */
  function ImageFromParts(parts: seq<Part>): (r: Result<string>)
    ensures r.Ok? <==> exists j :: 0 <= j < |parts| && CarriesImage(parts[j])
    ensures r.Ok? ==> exists k :: 0 <= k < |parts| && CarriesImage(parts[k]) && r.value == PartUrl(parts[k])
                        && forall j :: 0 <= j < k ==> !CarriesImage(parts[j])
    ensures r.Err? ==> r.failure == Failure(Some(NoImageMessage))
  {
    match FirstImagePart(parts)
    case Some(k) => Ok(PartUrl(parts[k]))
    case None => Err(Failure(Some(NoImageMessage)))
  }

  /** Parts after the first image-carrying one are ignored. */
  lemma LaterPartsIgnored(parts: seq<Part>, later: seq<Part>)
    requires exists j :: 0 <= j < |parts| && CarriesImage(parts[j])
    ensures ImageFromParts(parts + later) == ImageFromParts(parts)
  {
    var k := FirstImagePart(parts).value;
    var all := parts + later;
    assert all[k] == parts[k];
    assert forall j :: 0 <= j < k ==> all[j] == parts[j];
    assert FirstImagePart(all) == Some(k);
  }

  /**
   The response scan: only the first candidate is looked at, and the result is the data URL
   of its first image-carrying part. No candidates, or no such part, fails with
   "No image data found in response".
   */
  function ExtractImage(resp: Response): (r: Result<string>)
    ensures r.Ok? <==> resp.candidates.Some? && |resp.candidates.value| > 0
                       && exists j :: 0 <= j < |resp.candidates.value[0].parts| && CarriesImage(resp.candidates.value[0].parts[j])
    ensures r.Ok? ==> StartsWith(r.value, "data:")
    ensures r.Err? ==> r.failure == Failure(Some(NoImageMessage))
    ensures resp.candidates.Some? && |resp.candidates.value| > 0 ==> r == ImageFromParts(resp.candidates.value[0].parts)
  {
    if resp.candidates.Some? && |resp.candidates.value| > 0 then
      var r := ImageFromParts(resp.candidates.value[0].parts);
      if r.Ok? then
        var k :| 0 <= k < |resp.candidates.value[0].parts| && CarriesImage(resp.candidates.value[0].parts[k])
                 && r.value == PartUrl(resp.candidates.value[0].parts[k]);
        var d := resp.candidates.value[0].parts[k].inlineData.value;
        DataUrls.BuildIsDataUrl(if Truthy(d.mimeType) then d.mimeType.value else DefaultImageMime, d.data.value);
        r
      else r
    else Err(Failure(Some(NoImageMessage)))
  }

  /**
   `generateOptimizedImage`: build the instruction, make the remote call, and scan its
   response. A thrown failure of the call is passed on unchanged; a success is always a
   data URL.
   */
  function GenerateOptimizedImage(base64: Option<string>, mime: string, scene: SceneOption, desc: Option<string>, sdk: Sdk)
    : (r: Result<string>)
    ensures sdk(SystemPrompt(scene, desc), base64, mime).Err? ==>
              r == Err(sdk(SystemPrompt(scene, desc), base64, mime).failure)
    ensures sdk(SystemPrompt(scene, desc), base64, mime).Ok? ==>
              r == ExtractImage(sdk(SystemPrompt(scene, desc), base64, mime).value)
    ensures r.Ok? ==> StartsWith(r.value, "data:") && |r.value| > 0
  {
    match sdk(SystemPrompt(scene, desc), base64, mime)
    case Err(f) => Err(f)
    case Ok(resp) => ExtractImage(resp)
  }

  /**
   The data URL returned for a part whose payload is base64 text gives that payload back
   under `split(',')[1]`, which is how the download code reads it.
   */
  lemma ReturnedUrlYieldsPayload(p: Part)
    requires CarriesImage(p)
    requires DataUrls.IsBase64Text(p.inlineData.value.data.value)
    requires p.inlineData.value.mimeType.Some? ==> ',' !in p.inlineData.value.mimeType.value
    ensures SplitSecond(PartUrl(p)) == Some(p.inlineData.value.data.value)
  {
    var d := p.inlineData.value;
    DataUrls.PayloadRecovered(if Truthy(d.mimeType) then d.mimeType.value else DefaultImageMime, d.data.value);
  }
}

=== FILE: image_card.dfy ===
/**
 The rules one image card applies to its item: when the description can be edited, when
 retry is offered, the single-download guard and file name, which picture is shown, the
 description field's value and the scene label. Only the decisions are modelled, not the
 markup.
 */
module ImageCard {
  import opened Js
  import opened Types
  import Store
  import Batch

  /** The description field is enabled for idle and failed items. */
  predicate IsEditable(item: Item)
    ensures IsEditable(item) ==> item.status != Processing && item.status != Done
  {
    item.status == Idle || item.status == Error
  }

  /** Exactly the items a run would pick up can be edited; an item in flight or done cannot be. */
  lemma EditableIffPending(item: Item)
    ensures IsEditable(item) <==> Batch.IsPending(item)
    ensures IsEditable(item) ==> item.status != Processing && item.status != Done
  {
  }

  /** A retry button is rendered on the failure overlay and in the done actions. */
  predicate RetryOffered(item: Item)
    ensures RetryOffered(item) ==> item.status != Processing && item.status != Idle
  {
    item.status == Error || item.status == Done
  }

  /**
   Retry is never offered on an item in flight, and every item the store can hold is either
   in flight, offered a retry, or idle.
   */
  lemma RetryNeverWhileProcessing(item: Item)
    requires Store.WellFormed(item)
    ensures RetryOffered(item) ==> item.status != Processing
    ensures RetryOffered(item) || item.status == Processing || item.status == Idle
  {
  }

  /** After a run settles, its item is offered a retry and is no longer in flight. */
  lemma FinishedRunOffersRetry(item: Item, scene: SceneOption, env: Batch.Env)
    ensures RetryOffered(Batch.Finish(item, scene, env))
  {
    Batch.FinishWellFormed(item, scene, env);
  }

  /** `handleDownload`: nothing without a truthy result URL, else a link named `tiktok-opt-<id>.png`. */
  function DownloadFileName(item: Item): (r: Option<string>)
    ensures r.None? <==> !Truthy(item.processedUrl)
  {
    if !Truthy(item.processedUrl) then None else Some("tiktok-opt-" + item.id + ".png")
  }

  /** Two items that download under the same name have the same id: with unique ids, the names never clash. */
  lemma DownloadFileNameInjective(a: Item, b: Item)
    requires DownloadFileName(a).Some? && DownloadFileName(a) == DownloadFileName(b)
    ensures a.id == b.id
  {
    var na, nb := DownloadFileName(a).value, DownloadFileName(b).value;
    assert na[11..|na| - 4] == a.id;
    assert nb[11..|nb| - 4] == b.id;
  }

  /** A done item of a well-formed store always has something to download. */
  lemma DoneItemDownloads(item: Item)
    requires Store.WellFormed(item) && item.status == Done
    ensures DownloadFileName(item).Some?
  {
  }

  /** The picture shown: for a done item with a result, the result (or the original while held); otherwise the original. */
  function DisplayedImage(item: Item, showOriginal: bool): (r: string)
    ensures r == item.previewUrl || (item.processedUrl.Some? && r == item.processedUrl.value)
    ensures r != item.previewUrl ==> item.status == Done && !showOriginal
  {
    if item.status == Done && Truthy(item.processedUrl) then
      (if showOriginal then item.previewUrl else item.processedUrl.value)
    else item.previewUrl
  }

  /**
   In a well-formed store a done item shows its result unless the original is held, and
   every other item shows its original, even one that kept a result from an earlier run.
   */
  lemma DisplayedImageByStatus(item: Item, showOriginal: bool)
    requires Store.WellFormed(item)
    ensures item.status == Done && !showOriginal ==> DisplayedImage(item, showOriginal) == item.processedUrl.value
    ensures item.status != Done || showOriginal ==> DisplayedImage(item, showOriginal) == item.previewUrl
  {
  }

  /** The description field's text: the item's description when it is non-empty, otherwise the empty text. */
  function DescriptionValue(item: Item): (r: string)
    ensures item.productDescription.Some? ==> r == item.productDescription.value
    ensures item.productDescription.None? ==> r == ""
  {
    if Truthy(item.productDescription) then item.productDescription.value else ""
  }

  /** What is typed into a card's field is what that card then shows; the other cards keep their text. */
  lemma EditShows(images: seq<Item>, id: string, text: string, i: nat)
    requires i < |images|
    ensures i < |Store.UpdateDescription(images, id, text)|
    ensures images[i].id == id ==> DescriptionValue(Store.UpdateDescription(images, id, text)[i]) == text
    ensures images[i].id != id ==> DescriptionValue(Store.UpdateDescription(images, id, text)[i]) == DescriptionValue(images[i])
  {
  }

  /** The label above the file name. */
  function SceneLabel(item: Item): (r: string)
    ensures r == "Pending" <==> item.status != Done
    ensures r == "Auto Detected" || r == "Manual Scene" || r == "Pending"
  {
    if item.status == Done then
      (if item.sceneUsed == Some("auto") then "Auto Detected" else "Manual Scene")
    else "Pending"
  }

  /** The label of an item settled with `result` under the scene id `sceneId`. */
  lemma LabelOfOutcome(item: Item, result: Result<string>, sceneId: string)
    ensures var y := Store.Apply(Store.Apply(item, Store.EnterProcessing), Batch.Outcome(result, sceneId));
            (result.Ok? ==> (SceneLabel(y) == "Auto Detected" <==> sceneId == "auto"))
            && (result.Ok? ==> (SceneLabel(y) == "Manual Scene" <==> sceneId != "auto"))
            && (result.Err? ==> SceneLabel(y) == "Pending")
  {
  }

  /**
   After a run, the label tells which scene it used: "Auto Detected" exactly when the auto
   scene was selected, "Manual Scene" for any preset, and "Pending" whenever the run failed,
   even on an item that still holds a result from an earlier run.
   */
  lemma LabelAfterRun(item: Item, scene: SceneOption, env: Batch.Env)
    ensures Batch.Pipeline(item, scene, env).Ok? ==>
              (SceneLabel(Batch.Finish(item, scene, env)) == "Auto Detected" <==> scene.id == Auto)
    ensures Batch.Pipeline(item, scene, env).Ok? ==>
              (SceneLabel(Batch.Finish(item, scene, env)) == "Manual Scene" <==> scene.id != Auto)
    ensures Batch.Pipeline(item, scene, env).Err? ==> SceneLabel(Batch.Finish(item, scene, env)) == "Pending"
  {
    var result := Batch.Pipeline(item, scene, env);
    assert Batch.Finish(item, scene, env)
        == Store.Apply(Store.Apply(item, Store.EnterProcessing), Batch.Outcome(result, SceneId(scene.id)));
    LabelOfOutcome(item, result, SceneId(scene.id));
    assert SceneId(scene.id) == "auto" <==> scene.id == Auto by {
      if SceneId(scene.id) == "auto" {
        SceneIdInjective(scene.id, Auto);
      }
    }
  }
}

=== FILE: image_utils.dfy ===
/**
 Client-side preparation of an upload: the size threshold under which a file is sent
 as is, the width-only downscale, the re-encoded file's metadata, and the stripping of
 the data-URL prefix from the file reader's result. Decoding the image, drawing on a
 canvas, JPEG encoding and reading the file are browser services, passed in as a
 `Browser` value of opaque functions.
 */
module ImageUtils {
  import opened Js
  import opened Types
  import DataUrls

  /** Files smaller than 1 MiB are sent untouched. */
  const CompressThreshold: nat := 1024 * 1024 * 1

  /** Default width bound and JPEG quality of `compressImage`. */
  const DefaultMaxWidth: nat := 1536
  const DefaultQuality: real := 0.8

  /** Canvas dimensions, in real arithmetic (the canvas's integer truncation is not modelled). */
  datatype Dims = Dims(width: real, height: real)

  /**
   The browser services compression and encoding depend on:
   `decode` loads the image and yields its natural width and height, or fails (`onerror`);
   `hasContext` says whether a 2D canvas context is available;
   `toBlob` encodes the drawn canvas as JPEG at a quality and yields the blob's size, or null;
   `readBase64` is the file reader's base64 encoding of a file's bytes, or fails (`onerror`).
   */
  datatype Browser = Browser(
    decode: SourceFile -> Option<(nat, nat)>,
    hasContext: bool,
    toBlob: (SourceFile, Dims, real) -> Option<nat>,
    readBase64: SourceFile -> Option<string>)

  /**
   The canvas size for an image of the given natural size. Only the width is tested: an
   image wider than `maxWidth` is scaled to exactly that width with its aspect ratio kept;
   anything else keeps both dimensions. Neither dimension ever grows.
   */
  function TargetDims(width: nat, height: nat, maxWidth: nat): (d: Dims)
    ensures width <= maxWidth ==> d == Dims(width as real, height as real)
    ensures width > maxWidth ==> d.width == maxWidth as real
    ensures width > maxWidth && height > 0 ==> d.height < height as real
    ensures 0.0 <= d.width <= width as real && 0.0 <= d.height <= height as real
    ensures d.width > 0.0 ==> d.height / d.width == height as real / width as real
  {
    if width > maxWidth then
      var h := (height as real * maxWidth as real) / width as real;
      assert h <= height as real by {
        assert height as real * maxWidth as real <= height as real * width as real;
      }
      assert height > 0 ==> h < height as real by {
        if height > 0 {
          assert height as real * maxWidth as real < height as real * width as real;
        }
      }
      Dims(maxWidth as real, h)
    else
      Dims(width as real, height as real)
  }

  /** Only the width is bounded: a tall, narrow image keeps a height far above the bound. */
  lemma HeightIsNotBounded()
    ensures TargetDims(100, 5000, DefaultMaxWidth).height > DefaultMaxWidth as real
  {
  }

  /**
   Compression of an upload before it is sent. A file under the threshold comes back as it
   is. Otherwise the image is decoded, drawn at `TargetDims` and re-encoded; the new file
   keeps the original name and has type `image/jpeg`. A decode failure rejects with an
   event that has no message; a missing canvas context or a null blob rejects with a
   message, and never yields a file.
   */
  function CompressImage(file: SourceFile, maxWidth: nat, quality: real, browser: Browser): (r: Result<SourceFile>)
    ensures file.size < CompressThreshold ==> r == Ok(file)
    ensures r.Ok? ==> r.value.name == file.name
    ensures r.Ok? && r.value != file ==> r.value.mime == "image/jpeg"
    ensures file.size >= CompressThreshold && !browser.hasContext ==>
              r.Err? && (browser.decode(file).Some? ==> r.failure.message == Some("Canvas context not available"))
    ensures file.size >= CompressThreshold && browser.decode(file).None? ==> r == Err(Failure(None))
    ensures file.size >= CompressThreshold && browser.decode(file).Some? && browser.hasContext ==>
              var natural := browser.decode(file).value;
              var blob := browser.toBlob(file, TargetDims(natural.0, natural.1, maxWidth), quality);
              (blob.None? ==> r == Err(Failure(Some("Canvas to Blob failed"))))
              && (blob.Some? ==> r == Ok(SourceFile(file.name, blob.value, "image/jpeg")))
    ensures file.size >= CompressThreshold && r.Ok? ==> r.value.mime == "image/jpeg" && browser.hasContext && browser.decode(file).Some?
  {
    if file.size < CompressThreshold then Ok(file)
    else
      match browser.decode(file)
      case None => Err(Failure(None))
      case Some(natural) =>
        var dims := TargetDims(natural.0, natural.1, maxWidth);
        if !browser.hasContext then Err(Failure(Some("Canvas context not available")))
        else
          match browser.toBlob(file, dims, quality)
          case None => Err(Failure(Some("Canvas to Blob failed")))
          case Some(size) => Ok(SourceFile(file.name, size, "image/jpeg"))
  }

  /** When every browser step succeeds on a large file, the result is a JPEG of the blob's size under the original name. */
  lemma CompressSucceeds(file: SourceFile, maxWidth: nat, quality: real, browser: Browser, w: nat, h: nat, size: nat)
    requires file.size >= CompressThreshold
    requires browser.decode(file) == Some((w, h)) && browser.hasContext
    requires browser.toBlob(file, TargetDims(w, h, maxWidth), quality) == Some(size)
    ensures CompressImage(file, maxWidth, quality, browser) == Ok(SourceFile(file.name, size, "image/jpeg"))
  {
  }

  /**
   `fileToBase64`: the reader's data URL `data:<type>;base64,<payload>` with everything up to
   the first comma removed, as `split(',')[1]` does (`None` is JavaScript's `undefined`).
   A reader error rejects with an event that has no message.
   */
  function FileToBase64(file: SourceFile, browser: Browser): (r: Result<Option<string>>)
    ensures browser.readBase64(file).None? <==> r.Err?
    ensures r.Err? ==> r.failure == Failure(None)
  {
    match browser.readBase64(file)
    case None => Err(Failure(None))
    case Some(payload) => Ok(SplitSecond(DataUrls.Build(file.mime, payload)))
  }

  /**
   Stripping the prefix recovers the reader's payload exactly: the file type has no comma
   and base64 text has none, so the first comma is the one after `;base64`.
   */
  lemma FileToBase64RecoversPayload(file: SourceFile, browser: Browser, payload: string)
    requires browser.readBase64(file) == Some(payload)
    requires ',' !in file.mime && DataUrls.IsBase64Text(payload)
    ensures FileToBase64(file, browser) == Ok(Some(payload))
  {
    DataUrls.PayloadRecovered(file.mime, payload);
  }
}

=== FILE: js.dfy ===
/**
 The handful of JavaScript built-ins the application's logic leans on, written as
 pure functions over Dafny sequences: truthiness of optional strings,
 `indexOf`/`lastIndexOf` on one character, `split(',')[1]`, `Array.prototype.slice(0, end)`,
 decimal formatting of a counter, and the unanchored `match('image.*')` test.
 */
module Js {

  /** `undefined` or a value. */
  datatype Option<+T> = None | Some(value: T)

  /** JavaScript truthiness of an optional string: both `undefined` and `""` are falsy. */
  predicate Truthy(s: Option<string>) {
    s.Some? && |s.value| > 0
  }

  /** `s.indexOf(c)` for one character; `None` stands for -1. */
  function IndexOf(s: string, c: char): (r: Option<nat>)
    ensures r.Some? ==> r.value < |s| && s[r.value] == c && c !in s[..r.value]
    ensures r.None? ==> c !in s
  {
    if |s| == 0 then None
    else if s[0] == c then Some(0)
    else
      match IndexOf(s[1..], c)
      case None => None
      case Some(i) =>
        assert s[..i + 1] == [s[0]] + s[1..][..i];
        Some(i + 1)
  }

  /** `s.lastIndexOf(c)` for one character; `None` stands for -1. */
  function LastIndexOf(s: string, c: char): (r: Option<nat>)
    ensures r.Some? ==> r.value < |s| && s[r.value] == c && c !in s[r.value + 1..]
    ensures r.None? ==> c !in s
  {
    if |s| == 0 then None
    else if s[|s| - 1] == c then Some(|s| - 1)
    else
      var init := s[..|s| - 1];
      match LastIndexOf(init, c)
      case None =>
        assert s == init + [s[|s| - 1]];
        None
      case Some(i) =>
        assert s[i + 1..] == init[i + 1..] + [s[|s| - 1]];
        Some(i)
  }

  /** The first occurrence of a character is unique: any index holding `c` with no `c` before it is the one `IndexOf` finds. */
  lemma IndexOfIsFirst(s: string, c: char, k: nat)
    requires k < |s| && s[k] == c && c !in s[..k]
    ensures IndexOf(s, c) == Some(k)
  {
    assert s[k] in s;
  }

  /**
   `s.split(',')[1]`: the text between the first and the second comma (or the end of the
   string); `None` stands for the `undefined` JavaScript gives when there is no comma.
   */
  function SplitSecond(s: string): (r: Option<string>)
    ensures r.Some? <==> ',' in s
    ensures r.Some? ==> ',' !in r.value
  {
    match IndexOf(s, ',')
    case None => None
    case Some(i) =>
      assert s[i] in s;
      var rest := s[i + 1..];
      match IndexOf(rest, ',')
      case None => Some(rest)
      case Some(j) => Some(rest[..j])
  }

  /** Joining two comma-free texts with a comma and taking `split(',')[1]` gives back the second one. */
  lemma SplitSecondOfJoin(a: string, b: string)
    requires ',' !in a && ',' !in b
    ensures SplitSecond(a + "," + b) == Some(b)
  {
    var s := a + "," + b;
    assert s[..|a|] == a;
    IndexOfIsFirst(s, ',', |a|);
    assert s[|a| + 1..] == b;
  }

  /** How `Array.prototype.slice` reads its `end` argument: negative counts back from the length; the result is clamped to `[0, len]`. */
  function RelativeIndex(rel: int, len: nat): (r: nat)
    ensures r <= len
  {
    if rel < 0 then (if len + rel < 0 then 0 else len + rel)
    else if rel < len then rel
    else len
  }

  /** `s.slice(0, end)` with JavaScript's handling of a negative or too-large `end`. */
  function SliceTo<T>(s: seq<T>, end: int): (r: seq<T>)
    ensures |r| <= |s| && r == s[..|r|]
    ensures 0 <= end ==> |r| == (if end < |s| then end else |s|)
    ensures end < 0 ==> |r| == (if |s| + end < 0 then 0 else |s| + end)
  {
    s[..RelativeIndex(end, |s|)]
  }

  /** `s` begins with `prefix`. */
  predicate StartsWith(s: string, prefix: string) {
    |prefix| <= |s| && s[..|prefix|] == prefix
  }

  /** `needle` occurs in `hay` starting at some position. */
  predicate Contains(hay: string, needle: string) {
    exists k | 0 <= k <= |hay| :: StartsWith(hay[k..], needle)
  }

  /** A text occurs in any concatenation that has it as a middle piece. */
  lemma ContainsMiddle(a: string, b: string, c: string)
    ensures Contains(a + b + c, b)
  {
    var s := a + b + c;
    assert s[|a|..][..|b|] == b;
    assert StartsWith(s[|a|..], b);
  }

  /** `mime.match('image.*')`: the regular expression is not anchored, so it matches whenever "image" occurs anywhere. */
  predicate MatchesImagePattern(mime: string) {
    Contains(mime, "image")
  }

  /** One decimal digit. */
  function DigitChar(d: nat): (c: char)
    requires d < 10
    ensures '0' <= c <= '9'
  {
    (48 + d) as char
  }

  /** `${n}` for a natural number: its decimal digits, most significant first, no leading zeros. */
  function Decimal(n: nat): (r: string)
    ensures |r| > 0
    ensures forall i :: 0 <= i < |r| ==> '0' <= r[i] <= '9'
    decreases n
  {
    if n < 10 then [DigitChar(n)] else Decimal(n / 10) + [DigitChar(n % 10)]
  }

  /** Different numbers print differently. */
  lemma {:induction false} DecimalInjective(m: nat, n: nat)
    requires Decimal(m) == Decimal(n)
    ensures m == n
    decreases m
  {
    var dm, dn := Decimal(m), Decimal(n);
    assert DigitChar(m % 10) == dm[|dm| - 1] == dn[|dn| - 1] == DigitChar(n % 10);
    if m >= 10 && n >= 10 {
      assert Decimal(m / 10) == dm[..|dm| - 1] == dn[..|dn| - 1] == Decimal(n / 10);
      DecimalInjective(m / 10, n / 10);
    }
  }
}

=== FILE: store.dfy ===
/**
 The ordered list of image items and the ways the application rewrites it: upload
 with a cap, delete, clear, description edits, and the per-item status transitions
 of a processing run. Every operation is a pure function from the old list to the
 new one, as the functional state updates it models are.
 */
module Store {
  import opened Js
  import opened Types
  import Constants

  /** What the application makes for a newly accepted file: a generated id and an object URL for its preview. */
  datatype Handle = Handle(id: string, previewUrl: string)

  /** A change to one item, applied wherever the id matches. */
  datatype Transition =
    | SetDescription(text: string)
    | EnterProcessing
    | Complete(url: string, sceneId: string)
    | Fail(message: string)

  /** The object spread `{ ...img, <fields> }` of each transition. */
  function Apply(item: Item, t: Transition): (r: Item)
    ensures r.id == item.id && r.originalFile == item.originalFile && r.previewUrl == item.previewUrl
  {
    match t
    case SetDescription(text) => item.(productDescription := Some(text))
    case EnterProcessing => item.(status := Processing, error := None)
    case Complete(url, sceneId) => item.(status := Done, processedUrl := Some(url), sceneUsed := Some(sceneId))
    case Fail(message) => item.(status := Error, error := Some(message))
  }

  /** Applies the transition to every item with the id and leaves the others as they are. */
  function Update(images: seq<Item>, id: string, t: Transition): (r: seq<Item>)
    ensures |r| == |images|
    ensures forall i :: 0 <= i < |r| ==> r[i] == if images[i].id == id then Apply(images[i], t) else images[i]
  {
    if |images| == 0 then []
    else [if images[0].id == id then Apply(images[0], t) else images[0]] + Update(images[1..], id, t)
  }

  /** Updates of two different ids commute: the order in which concurrent runs write back does not matter. */
  lemma UpdatesCommute(images: seq<Item>, a: string, t: Transition, b: string, u: Transition)
    requires a != b
    ensures Update(Update(images, a, t), b, u) == Update(Update(images, b, u), a, t)
  {
    var viaA, viaB := Update(images, a, t), Update(images, b, u);
    var left, right := Update(viaA, b, u), Update(viaB, a, t);
    forall i | 0 <= i < |left|
      ensures left[i] == right[i]
    {
      assert viaA[i].id == images[i].id && viaB[i].id == images[i].id;
      if images[i].id == a {
        assert left[i] == viaA[i] == Apply(images[i], t);
        assert right[i] == Apply(viaB[i], t) && viaB[i] == images[i];
      } else if images[i].id == b {
        assert right[i] == viaB[i] == Apply(images[i], u);
        assert left[i] == Apply(viaA[i], u) && viaA[i] == images[i];
      } else {
        assert left[i] == viaA[i] == images[i];
        assert right[i] == viaB[i] == images[i];
      }
    }
  }

  // ---------------------------------------------------------------- identity and well-formedness

  function Ids(images: seq<Item>): set<string> {
    set i | 0 <= i < |images| :: images[i].id
  }

  predicate UniqueIds(images: seq<Item>) {
    forall i, j :: 0 <= i < j < |images| ==> images[i].id != images[j].id
  }

  /**
   The field discipline every item keeps: the sub-statuses compressing and uploading are
   never used; an idle item has no result, error or scene; a processing item has no error;
   a done item has a truthy result, a scene and no error; an errored item has a truthy
   message. A previous result may survive into processing and error.
   */
  predicate WellFormed(item: Item) {
    && item.status != Compressing && item.status != Uploading
    && (item.status == Idle ==> item.processedUrl.None? && item.error.None? && item.sceneUsed.None?)
    && (item.status == Processing ==> item.error.None?)
    && (item.status == Done ==> Truthy(item.processedUrl) && item.error.None? && item.sceneUsed.Some?)
    && (item.status == Error ==> Truthy(item.error))
  }

  /** The store's invariant: within the upload cap, ids unique, every item well formed. */
  predicate Invariant(images: seq<Item>) {
    && |images| <= Constants.MaxFiles
    && UniqueIds(images)
    && forall i :: 0 <= i < |images| ==> WellFormed(images[i])
  }

  // ---------------------------------------------------------------- upload

  /** The files whose type matches `image.*`, in order. */
  function ImageFiles(files: seq<SourceFile>): (r: seq<SourceFile>)
    ensures |r| <= |files|
    ensures forall f :: f in r <==> f in files && MatchesImagePattern(f.mime)
  {
    if |files| == 0 then []
    else (if MatchesImagePattern(files[0].mime) then [files[0]] else []) + ImageFiles(files[1..])
  }

  /** Filtering two joined file lists filters each in turn: accepted files keep file order and repeats. */
  lemma {:induction false} ImageFilesConcat(a: seq<SourceFile>, b: seq<SourceFile>)
    ensures ImageFiles(a + b) == ImageFiles(a) + ImageFiles(b)
    decreases |a|
  {
    if |a| == 0 {
      assert a + b == b;
    } else {
      assert (a + b)[1..] == a[1..] + b;
      ImageFilesConcat(a[1..], b);
    }
  }

  function HandleIds(handles: seq<Handle>): set<string> {
    set i | 0 <= i < |handles| :: handles[i].id
  }

  predicate DistinctHandles(handles: seq<Handle>) {
    forall i, j :: 0 <= i < j < |handles| ==> handles[i].id != handles[j].id
  }

  /** A new idle item for an accepted file. */
  function NewItem(file: SourceFile, handle: Handle): Item {
    Item(handle.id, file, handle.previewUrl, None, Idle, None, None, None)
  }

  /** One new item per accepted file, the i-th taking the i-th generated handle. */
  function NewItems(accepted: seq<SourceFile>, handles: seq<Handle>): (r: seq<Item>)
    requires |handles| == |accepted|
    ensures |r| == |accepted|
    ensures forall i :: 0 <= i < |r| ==> r[i] == NewItem(accepted[i], handles[i])
  {
    seq(|accepted|, i requires 0 <= i < |accepted| => NewItem(accepted[i], handles[i]))
  }

  /** Every new item takes its id from the handles, and distinct handles give distinct ids. */
  lemma NewItemsIds(accepted: seq<SourceFile>, handles: seq<Handle>)
    requires |handles| == |accepted|
    ensures Ids(NewItems(accepted, handles)) == HandleIds(handles)
    ensures DistinctHandles(handles) ==> UniqueIds(NewItems(accepted, handles))
  {
    var r := NewItems(accepted, handles);
    forall x | x in HandleIds(handles) ensures x in Ids(r) {
      var i :| 0 <= i < |handles| && handles[i].id == x;
      assert r[i].id == x;
    }
  }

  /**
   `handleFileUpload`: take the first `MaxFiles - |images|` files (JavaScript slice), skip the
   non-images among them, and append one new idle item per remaining file after the
   existing items, in file order. Existing items are untouched. Because the cut comes
   before the type test, a skipped file still takes a slot.
   */
  function Upload(images: seq<Item>, files: seq<SourceFile>, handles: seq<Handle>): (r: seq<Item>)
    requires |handles| == |files|
    ensures |r| >= |images| && r[..|images|] == images
    ensures |r| - |images| == |ImageFiles(SliceTo(files, Constants.MaxFiles - |images|))|
    ensures |r| - |images| <= |SliceTo(files, Constants.MaxFiles - |images|)|
    ensures |images| <= Constants.MaxFiles ==> |r| <= Constants.MaxFiles
    ensures forall i :: |images| <= i < |r| ==>
              r[i].originalFile == ImageFiles(SliceTo(files, Constants.MaxFiles - |images|))[i - |images|]
              && r[i].id == handles[i - |images|].id
    ensures forall i :: |images| <= i < |r| ==>
              r[i].status == Idle && r[i].processedUrl.None? && r[i].error.None? && r[i].sceneUsed.None? && r[i].productDescription.None?
              && r[i].originalFile in files && MatchesImagePattern(r[i].originalFile.mime)
  {
    var kept := SliceTo(files, Constants.MaxFiles - |images|);
    var accepted := ImageFiles(kept);
    var added := NewItems(accepted, handles[..|accepted|]);
    var r := images + added;
    assert |r| - |images| == |accepted| <= |kept| <= |files|;
    assert r[..|images|] == images;
    forall i | |images| <= i < |r|
      ensures r[i] == NewItem(accepted[i - |images|], handles[i - |images|])
    {
      assert r[i] == added[i - |images|];
    }
    forall i | |images| <= i < |r| ensures r[i].originalFile in files && MatchesImagePattern(r[i].originalFile.mime) {
      assert accepted[i - |images|] in accepted;
      assert accepted[i - |images|] in kept;
    }
    r
  }

  /**
   With one free slot left, a non-image first file uses it up: nothing is added even if an
   image follows it.
   */
  lemma SkippedFileTakesSlot(images: seq<Item>, files: seq<SourceFile>, handles: seq<Handle>)
    requires |handles| == |files|
    requires |images| == Constants.MaxFiles - 1 && |files| >= 1
    requires !MatchesImagePattern(files[0].mime)
    ensures Upload(images, files, handles) == images
  {
    var kept := SliceTo(files, Constants.MaxFiles - |images|);
    assert kept == [files[0]];
    assert ImageFiles(kept) == [] + ImageFiles(kept[1..]);
    assert ImageFiles(kept) == [];
  }

  /** A full store stays full: an eleventh file is dropped. */
  lemma FullStoreRejectsUploads(images: seq<Item>, files: seq<SourceFile>, handles: seq<Handle>)
    requires |handles| == |files|
    requires |images| == Constants.MaxFiles
    ensures Upload(images, files, handles) == images
  {
  }

  /** Upload keeps the invariant when the generated ids are distinct and not already in use. */
  lemma UploadKeepsInvariant(images: seq<Item>, files: seq<SourceFile>, handles: seq<Handle>)
    requires |handles| == |files|
    requires Invariant(images)
    requires DistinctHandles(handles) && HandleIds(handles) !! Ids(images)
    ensures Invariant(Upload(images, files, handles))
  {
    var accepted := ImageFiles(SliceTo(files, Constants.MaxFiles - |images|));
    var used := handles[..|accepted|];
    var added := NewItems(accepted, used);
    NewItemsIds(accepted, used);
    var r := Upload(images, files, handles);
    assert r == images + added;
    assert HandleIds(used) <= HandleIds(handles) by {
      forall x | x in HandleIds(used) ensures x in HandleIds(handles) {
        var i :| 0 <= i < |used| && used[i].id == x;
        assert handles[i].id == x;
      }
    }
    forall i, j | 0 <= i < j < |r|
      ensures r[i].id != r[j].id
    {
      if j >= |images| && i < |images| {
        assert r[j] == added[j - |images|];
        assert r[j].id in Ids(added);
        assert r[i].id in Ids(images);
      } else if i >= |images| {
        assert r[i] == added[i - |images|] && r[j] == added[j - |images|];
      }
    }
    forall i | 0 <= i < |r|
      ensures WellFormed(r[i])
    {
      if i >= |images| {
        assert r[i] == added[i - |images|];
      }
    }
  }

  // ---------------------------------------------------------------- delete and clear

  /** `handleDelete`: drop every item with the id, keep the rest in order. */
  function Delete(images: seq<Item>, id: string): (r: seq<Item>)
    ensures |r| <= |images|
    ensures forall i :: 0 <= i < |r| ==> r[i].id != id
    ensures id !in Ids(images) ==> r == images
  {
    if |images| == 0 then []
    else
      var rest := Delete(images[1..], id);
      assert id !in Ids(images) ==> id !in Ids(images[1..]) by {
        if id in Ids(images[1..]) {
          var i :| 0 <= i < |images[1..]| && images[1..][i].id == id;
          assert images[i + 1].id == id;
        }
      }
      assert images == [images[0]] + images[1..];
      if images[0].id == id then rest else [images[0]] + rest
  }

  /** The items kept are exactly those with another id. */
  lemma {:induction false} DeleteMembers(images: seq<Item>, id: string)
    ensures forall x :: x in Delete(images, id) <==> x in images && x.id != id
    decreases |images|
  {
    if |images| > 0 {
      DeleteMembers(images[1..], id);
      assert images == [images[0]] + images[1..];
    }
  }

  /** The tail of a list with unique ids has unique ids, none of them the head's. */
  lemma UniqueTail(images: seq<Item>)
    requires UniqueIds(images) && |images| > 0
    ensures UniqueIds(images[1..])
    ensures images[0].id !in Ids(images[1..])
  {
    var tail := images[1..];
    forall i, j | 0 <= i < j < |tail| ensures tail[i].id != tail[j].id {
      assert tail[i] == images[i + 1] && tail[j] == images[j + 1];
    }
  }

  /** Deleting from a concatenation deletes from each part. */
  lemma {:induction false} DeleteConcat(a: seq<Item>, b: seq<Item>, id: string)
    ensures Delete(a + b, id) == Delete(a, id) + Delete(b, id)
    decreases |a|
  {
    if |a| == 0 {
      assert a + b == b;
    } else {
      assert (a + b)[1..] == a[1..] + b;
      DeleteConcat(a[1..], b, id);
    }
  }

  /** With unique ids, deleting an item's id removes exactly that position and keeps everything else in order. */
  lemma DeleteRemovesExactlyOne(images: seq<Item>, k: nat)
    requires UniqueIds(images) && k < |images|
    ensures Delete(images, images[k].id) == images[..k] + images[k + 1..]
  {
    var id := images[k].id;
    var before, after := images[..k], images[k + 1..];
    assert images[k..] == [images[k]] + after;
    assert images == before + images[k..];
    assert id !in Ids(before) by {
      forall i | 0 <= i < |before| ensures before[i].id != id {
        assert before[i] == images[i];
      }
    }
    assert id !in Ids(after) by {
      forall i | 0 <= i < |after| ensures after[i].id != id {
        assert after[i] == images[k + 1 + i];
      }
    }
    DeleteConcat(before, [images[k]] + after, id);
    DeleteConcat([images[k]], after, id);
    assert Delete([images[k]], id) == [];
  }

  /** Deleting keeps the invariant. */
  lemma {:induction false} DeleteKeepsInvariant(images: seq<Item>, id: string)
    requires Invariant(images)
    ensures Invariant(Delete(images, id))
    decreases |images|
  {
    if |images| > 0 {
      var tail := images[1..];
      assert Invariant(tail);
      DeleteKeepsInvariant(tail, id);
      var rest := Delete(tail, id);
      DeleteMembers(tail, id);
      if images[0].id != id {
        var r := [images[0]] + rest;
        forall j | 1 <= j < |r|
          ensures r[0].id != r[j].id
        {
          assert r[j] in tail;
          var m :| 0 <= m < |tail| && tail[m] == r[j];
          assert images[m + 1] == r[j];
        }
      }
    }
  }

  /** `handleClearAll`. */
  function ClearAll(images: seq<Item>): (r: seq<Item>)
    ensures |r| == 0
  {
    []
  }

  /** Deleting each of a list of ids in turn. */
  function DeleteEach(images: seq<Item>, ids: seq<string>): seq<Item>
    decreases |ids|
  {
    if |ids| == 0 then images else DeleteEach(Delete(images, ids[0]), ids[1..])
  }

  /** Deleting every id the items carry leaves nothing, whatever the order of the ids. */
  lemma {:induction false} DeleteEachCoveringIsEmpty(images: seq<Item>, ids: seq<string>)
    requires forall i :: 0 <= i < |images| ==> images[i].id in ids
    ensures DeleteEach(images, ids) == []
    decreases |ids|
  {
    assert |images| > 0 ==> images[0].id in ids;
    if |ids| > 0 {
      var rest := Delete(images, ids[0]);
      DeleteMembers(images, ids[0]);
      assert DeleteEach(images, ids) == DeleteEach(rest, ids[1..]);
      forall i | 0 <= i < |rest|
        ensures rest[i].id in ids[1..]
      {
        assert rest[i] in images;
        var m :| 0 <= m < |images| && images[m] == rest[i];
        assert images[m].id in ids && images[m].id != ids[0];
      }
      DeleteEachCoveringIsEmpty(rest, ids[1..]);
    }
  }

  /** Clearing is the same as deleting every item, one id at a time, in list order. */
  lemma ClearAllIsDeleteEach(images: seq<Item>)
    ensures ClearAll(images) == DeleteEach(images, seq(|images|, i requires 0 <= i < |images| => images[i].id))
  {
    var ids := seq(|images|, i requires 0 <= i < |images| => images[i].id);
    assert forall i :: 0 <= i < |images| ==> images[i].id == ids[i];
    DeleteEachCoveringIsEmpty(images, ids);
  }

  // ---------------------------------------------------------------- field updates

  /**
   `handleDescriptionUpdate`: the matching item's description becomes `text`; every other
   field of it, and every other item, stays as it was. There is no status check here.
   */
  function UpdateDescription(images: seq<Item>, id: string, text: string): (r: seq<Item>)
    ensures |r| == |images|
    ensures forall i :: 0 <= i < |r| ==>
              r[i].productDescription == (if images[i].id == id then Some(text) else images[i].productDescription)
    ensures forall i :: 0 <= i < |r| ==> r[i].(productDescription := images[i].productDescription) == images[i]
  {
    Update(images, id, SetDescription(text))
  }

  /**
   The first step of a processing run: the matching item becomes processing and loses its
   error message; a result and scene from an earlier run are kept.
   */
  function StartProcessing(images: seq<Item>, id: string): (r: seq<Item>)
    ensures |r| == |images|
    ensures forall i :: 0 <= i < |r| && images[i].id != id ==> r[i] == images[i]
    ensures forall i :: 0 <= i < |r| && images[i].id == id ==>
              r[i].status == Processing && r[i].error.None?
              && r[i].(status := images[i].status, error := images[i].error) == images[i]
  {
    Update(images, id, EnterProcessing)
  }

  /** A successful run: the matching item is done, with the result URL and the scene id recorded; everything else about it is kept. */
  function MarkDone(images: seq<Item>, id: string, url: string, sceneId: string): (r: seq<Item>)
    ensures |r| == |images|
    ensures forall i :: 0 <= i < |r| && images[i].id != id ==> r[i] == images[i]
    ensures forall i :: 0 <= i < |r| && images[i].id == id ==>
              r[i].status == Done && r[i].processedUrl == Some(url) && r[i].sceneUsed == Some(sceneId)
              && r[i].error == images[i].error && r[i].productDescription == images[i].productDescription
    ensures forall i :: 0 <= i < |r| && images[i].id == id ==>
              r[i].(status := images[i].status, processedUrl := images[i].processedUrl, sceneUsed := images[i].sceneUsed) == images[i]
  {
    Update(images, id, Complete(url, sceneId))
  }

  /** A failed run: the matching item is in error with the message; everything else about it, an earlier result and the description included, is kept. */
  function MarkFailed(images: seq<Item>, id: string, message: string): (r: seq<Item>)
    ensures |r| == |images|
    ensures forall i :: 0 <= i < |r| && images[i].id != id ==> r[i] == images[i]
    ensures forall i :: 0 <= i < |r| && images[i].id == id ==>
              r[i].status == Error && r[i].error == Some(message)
              && r[i].processedUrl == images[i].processedUrl && r[i].sceneUsed == images[i].sceneUsed
    ensures forall i :: 0 <= i < |r| && images[i].id == id ==>
              r[i].(status := images[i].status, error := images[i].error) == images[i]
  {
    Update(images, id, Fail(message))
  }

  /** Editing a description keeps the invariant: it touches no field the invariant reads. */
  lemma UpdateDescriptionKeepsInvariant(images: seq<Item>, id: string, text: string)
    requires Invariant(images)
    ensures Invariant(UpdateDescription(images, id, text))
  {
    var r := UpdateDescription(images, id, text);
    assert forall i :: 0 <= i < |r| ==> r[i].id == images[i].id && r[i].status == images[i].status;
  }
}

=== FILE: types.dfy ===
/**
 The records the application passes around: a processed image item with its
 status, the file it came from, the scene presets, and the failures the
 asynchronous steps can throw.
 */
module Types {
  import opened Js

  /** Every status an item can be given; the app itself only ever assigns idle, processing, done and error. */
  datatype Status = Idle | Compressing | Uploading | Processing | Done | Error

  /** The browser's `File`, reduced to what the logic reads: its name, byte size and MIME type. */
  datatype SourceFile = SourceFile(name: string, size: nat, mime: string)

  /**
   One uploaded image and its processing state. `previewUrl` is the object URL made
   for the original file; `processedUrl`, `error`, `sceneUsed` and `productDescription`
   are the optional fields of the item record.
   */
  datatype Item = Item(
    id: string,
    originalFile: SourceFile,
    previewUrl: string,
    processedUrl: Option<string>,
    status: Status,
    error: Option<string>,
    sceneUsed: Option<string>,
    productDescription: Option<string>)

  /** The six scene presets. */
  datatype SceneType = Auto | LivingRoom | Outdoor | Bedroom | Kitchen | Office

  /** The string id a scene type is known by (what `sceneUsed` stores and what the scene selector yields). */
  function SceneId(t: SceneType): string {
    match t
    case Auto => "auto"
    case LivingRoom => "living_room"
    case Outdoor => "outdoor"
    case Bedroom => "bedroom"
    case Kitchen => "kitchen"
    case Office => "office"
  }

  datatype SceneOption = SceneOption(id: SceneType, labelEn: string, labelZh: string, prompt: string)

  /** A thrown value, seen through the only thing the app reads from it: its `message`, which may be absent. */
  datatype Failure = Failure(message: Option<string>)

  /** The outcome of a promise: resolved with a value or rejected with a failure. */
  datatype Result<+T> = Ok(value: T) | Err(failure: Failure)

  /** Two scene types never share an id. */
  lemma SceneIdInjective(s: SceneType, t: SceneType)
    requires SceneId(s) == SceneId(t)
    ensures s == t
  {
  }
}
